=== FILE: README.md ===
# Catalog API core, modelled in Dafny

This project models the sequential core of a small ASP.NET catalog API (products, categories,
users). The model is built from pure functions over an immutable in-memory store.

- **Entities and DTOs.** `Product`, `Category` and `User` are rows. `ProductDto` and
  `CategoryDto` are the shapes that cross the API. The AutoMapper profile maps each entity to its
  DTO, and maps a DTO back onto an existing entity.
- **Repository queries.** The product queries attach each product's category. The category
  queries filter active categories, load a category with its products, and find a category by
  slug. The user queries look a user up by username or by email.
- **Listing pipeline.** Both list endpoints run the same steps:
  - an optional ordinal substring filter;
  - `total`, counted after filtering;
  - ordering by a key (products newest first, categories by name);
  - `Skip((page - 1) * pageSize).Take(pageSize)`;
  - the reply `{ total, page, pageSize, items }`.
- **CRUD decisions.** GetById, Create, Update and Delete in both catalog controllers are modelled
  as transitions `Store -> (Reply, Store)`.
- **Authentication.** Register builds a user. Login decides between Unauthorized and success,
  builds the four-claim set, and sets the token expiry 24 hours after the clock reading.

Modules, one per source component:

| module | file | models |
|---|---|---|
| `Optional` | optional.dfy | nullable values |
| `Text` | text.dfy | `string.IsNullOrWhiteSpace`, ordinal `string.Contains`, `int.ToString` / `int.Parse` |
| `Seqs` | seqs.dfy | the LINQ operators used (`Where`, `Select`, `FirstOrDefault`, `Skip`, `Take`) and row removal |
| `Sorting` | sorting.dfy | `OrderBy` / `OrderByDescending`, as a stable insertion sort under a comparer |
| `Entities` | entities.dfy | `Product`, `Category`, `User` and their constructors' defaults |
| `Persistence` | persistence.dfy | the store, key lookup, and the invariants (unique ids, referential integrity, no stored navigations) |
| `Mapping` | mapping.dfy | `ProductDto`, `CategoryDto`, and the mapping profile |
| `ProductRepository`, `CategoryRepository`, `UserRepository` | *_repository.dfy | the entity-specific queries |
| `Listing` | listing.dfy | paging, including the 32-bit skip computation as written |
| `Http` | http.dfy | action results and query-string defaults |
| `ProductsController`, `CategoriesController`, `AuthController` | *_controller.dfy | the actions |
| `Scenarios` | scenarios.dfy | concrete requests against a catalog shaped like the seed data |

Several behaviours come from outside the shown code. Each is modelled as a parameter or an
explicit assumption:

- Clock readings (`DateTime.Now` / `UtcNow`) are integer seconds passed in as `now`.
- The id the database assigns on insert is a parameter `newId`, required to be fresh.
- The culture-sensitive string comparer used to order categories is a parameter `nameLe`. The
  ordering lemma requires only that it is a total preorder.
- The `Jwt:Issuer` and `Jwt:Audience` settings are a parameter.
- Prices are exact integers, and so is every C# `decimal` in the model.
- Store order stands for database row order.
- `Slug` and `Username` comparisons are exact equality.

The generic `Repository<T>` is not part of this model, and neither are `User.cs` and
`CategoryDto.cs`. Their behaviour is reconstructed from how the shown code uses them:

- `GetByIdAsync` returns the first row with that key.
- `UpdateAsync` overwrites that row.
- `DeleteAsync` removes that row.
- `AddAsync` appends a row under a fresh key.
- A user has an id, a username, an email, a password hash and a nullable role.
- A category DTO carries the category's scalar members: id, name, description, slug and
  active flag.

## Model

| member | source | states |
|---|---|---|
| Entities.NewProduct | Core/Domain/Entities/Product.cs:5-21 | A new product has an empty name and SKU. It has zero id, price, stock and category id. Every optional member (short description, description, discount price, category, thumbnail) is absent. It is created at the construction time, and is neither active nor featured. |
| Entities.NewCategory | Core/Domain/Entities/Category.cs:5-13 | A new category has an empty name and slug, no description and no products, and is inactive. |
| Mapping.DefaultProductDto | Application/DTOs/ProductDto.cs:3-17 | A new ProductDto has an empty name and SKU. Its numbers are zero, its optional members (including the category name) are absent, and its flags are false. |
| Mapping.CategoryNameOf | Application/Mappings/MappingProfile.cs:13 | The `Category.Name` source is present exactly when a category is attached, and is then its name. |
| Mapping.ToDto | Application/Mappings/MappingProfile.cs:12-13 | Projection copies the eleven members a product and a DTO share by name. The category name is present exactly when a category is attached, and then equals that category's name. |
| Mapping.ApplyDto | Application/Mappings/MappingProfile.cs:14 | Mapping a DTO onto a product overwrites the eleven shared members. The category, thumbnail and creation time keep their old values. |
| Mapping.ApplyOwnDto | Application/Mappings/MappingProfile.cs:12-14 | Projecting a product and mapping that DTO back onto the same product leaves the product unchanged. |
| Mapping.ToDtoOfApplied | Application/Mappings/MappingProfile.cs:12-14 | Projecting a product after a DTO was applied gives back that DTO, except the display-only category name, which still comes from the product's category. |
| Mapping.ToCategoryDto | Application/Mappings/MappingProfile.cs:17 | Category projection copies id, name, description, slug and active flag. |
| Mapping.ApplyCategoryDto | Application/Mappings/MappingProfile.cs:18 | Mapping a category DTO onto a category overwrites its scalar members and keeps its products. |
| Mapping.ApplyOwnCategoryDto | Application/Mappings/MappingProfile.cs:17-18 | Applying a category's own DTO to it changes nothing. |
| Mapping.ToCategoryDtoOfApplied | Application/Mappings/MappingProfile.cs:17-18 | Projecting a category after a DTO was applied gives back exactly that DTO. |
| ProductRepository.WithCategory | Infrastructure/Repositories/ProductRepository.cs:19 | Including the category changes only the navigation. It is set exactly when a category with the product's `CategoryId` exists, and is then that stored category. |
| ProductRepository.GetProductsWithCategory | Infrastructure/Repositories/ProductRepository.cs:17-20 | Under referential integrity (the database's foreign key), every stored product is returned, in store order, with the same count. Each one differs from the stored row only in its category. An attached category is the stored one named by `CategoryId`, and under referential integrity every product has one. |
| ProductRepository.GetProductWithCategoryById | Infrastructure/Repositories/ProductRepository.cs:22-26 | The result is none exactly when no product has the id. Otherwise it is the first stored product with that id, with its category attached, and the category is present under referential integrity. |
| ProductRepository.GetProductsByCategory | Infrastructure/Repositories/ProductRepository.cs:28-33 | The result is exactly the stored products with the requested `CategoryId`, each as often as stored and in store order, each with its category attached. So every result has that `CategoryId`, and every such stored product is returned. Under referential integrity each attached category has the requested id. |
| ProductRepository.ByCategoryFromStore | Infrastructure/Repositories/ProductRepository.cs:28-33 | Each loaded product of a category is a stored product with its category attached, and every stored product of that category is among them. |
| CategoryRepository.GetActiveCategories | Infrastructure/Repositories/CategoryRepository.cs:17-20 | The result is exactly the active stored categories: membership if and only if active, and each one as often as it is stored. |
| CategoryRepository.ProductsOf | Infrastructure/Repositories/CategoryRepository.cs:24 | The back-reference holds exactly the stored products whose `CategoryId` is the category's id, with their multiplicities. |
| CategoryRepository.GetCategoryWithProducts | Infrastructure/Repositories/CategoryRepository.cs:22-26 | The result is none exactly when no category has the id. Otherwise it is the first stored category with that id, unchanged except that its products are exactly the stored products with that `CategoryId`. |
| CategoryRepository.GetBySlug | Infrastructure/Repositories/CategoryRepository.cs:28-31 | The result is none exactly when no category has the slug. Otherwise it is the first category in store order with that slug. |
| UserRepository.GetByUsername | Core/Domain/Interfaces/IUserRepository.cs:8 | The result is none exactly when no user has the username. Otherwise it is the first user in store order with it. |
| UserRepository.GetByEmail | Core/Domain/Interfaces/IUserRepository.cs:9 | The result is none exactly when no user has the email. Otherwise it is the first user in store order with it. |
| Persistence.GetById | Presentation/Controllers/ProductsController.cs:77-78 | Key lookup is none exactly when no row has the key. Otherwise the result is the first stored row with that key. |
| Persistence.IndexOfId | Presentation/Controllers/CategoriesController.cs:73-74 | The position of the first row with the key. It is none exactly when no row has the key. |
| Persistence.IndexOfOwnId | Presentation/Controllers/ProductsController.cs:77 | With unique keys, looking up a row's own key finds that very row. |
| Persistence.ReplaceKeepsUniqueIds | Presentation/Controllers/ProductsController.cs:80-81 | Overwriting a row with one under the same key keeps keys unique. |
| Persistence.RemoveKeepsUniqueIds | Presentation/Controllers/ProductsController.cs:93 | Removing a row keeps keys unique, and when keys are unique the removed key is gone. |
| Persistence.AppendKeepsUniqueIds | Presentation/Controllers/ProductsController.cs:65 | Appending a row under a fresh key keeps keys unique. |
| Text.IsWhiteSpace | Presentation/Controllers/ProductsController.cs:33 | `char.IsWhiteSpace`: within ASCII exactly the space and the controls tab to carriage return count as whitespace, and nothing above U+3000 does. |
| Text.AllWhiteSpace | Presentation/Controllers/CategoriesController.cs:32 | A string is all whitespace exactly when each of its characters is. |
| Text.IsNullOrWhiteSpace | Presentation/Controllers/ProductsController.cs:33 | `string.IsNullOrWhiteSpace` holds exactly for an absent string or one whose every character is whitespace, the empty string included. |
| Text.Contains | Presentation/Controllers/ProductsController.cs:35 | Ordinal `Contains` holds exactly when the query occurs at some index of the string. |
| Text.IntToString | Presentation/Controllers/AuthController.cs:50 | `int.ToString()` gives a non-empty string of decimal digits, with a leading minus exactly for negative numbers. It is canonical: the first digit is never a `0` unless it is the only digit, and a negative number has at least one digit after the minus, which is not `0`. |
| Text.NatToString | Presentation/Controllers/AuthController.cs:50 | The decimal digits of a natural number, with no leading zero. |
| Text.ParseIntToString | Presentation/Controllers/AuthController.cs:50 | Parsing the decimal string of an id gives back the id. |
| Text.IntToStringInjective | Presentation/Controllers/AuthController.cs:50 | Distinct ids have distinct decimal strings. |
| Seqs.Map | Presentation/Controllers/ProductsController.cs:45 | Mapping a list keeps its length, and each element maps to the element at the same index. |
| Seqs.FirstIndex | Infrastructure/Repositories/CategoryRepository.cs:30 | The index is none exactly when no element satisfies the predicate. Otherwise the element there satisfies it and none before it does. |
| Seqs.Filter | Presentation/Controllers/ProductsController.cs:35 | `Where` keeps exactly the elements satisfying the predicate, with their multiplicities. (Order is stated by `FilterAppend`.) |
| Seqs.FilterAppend | Presentation/Controllers/ProductsController.cs:35 | `Where` keeps input order: filtering a concatenation is concatenating the filtered parts. |
| Seqs.FilterMapCommute | Infrastructure/Repositories/ProductRepository.cs:28-33 | Filtering after a projection the filter cannot see equals projecting the filtered originals, element for element and in order. |
| Seqs.MapFilterMembers | Infrastructure/Repositories/ProductRepository.cs:28-33 | Each element of a filtered projection is the image of an element of the input, and each passing input element has its image there. |
| Seqs.FilterMapCount | Presentation/Controllers/ProductsController.cs:29-38 | Filtering after a projection counts the same as filtering the originals by the composed predicate. |
| Seqs.Skip | Presentation/Controllers/ProductsController.cs:41 | `Skip(n)` drops the first `n` elements, and nothing when `n <= 0`. |
| Seqs.Take | Presentation/Controllers/ProductsController.cs:42 | `Take(n)` keeps the first `n` elements, and none when `n <= 0`. |
| Seqs.RemoveAt | Presentation/Controllers/ProductsController.cs:93 | Removing a row shifts the later rows down, keeps the earlier rows, and removes exactly one occurrence. |
| Seqs.First | Infrastructure/Repositories/CategoryRepository.cs:30 | `FirstOrDefault(f)` is none exactly when no element satisfies `f`. Otherwise it is the element at the least index that does. |
| Seqs.FirstIndexAppend | Presentation/Controllers/AuthController.cs:38-45 | Appending an element after an existing match does not change the first match. |
| Sorting.Insert | Presentation/Controllers/ProductsController.cs:40 | Inserting one element adds exactly that element: one more item, and the same multiset plus it. |
| Sorting.InsertSorted | Presentation/Controllers/ProductsController.cs:40 | Under a total preorder, inserting into a sorted sequence keeps it sorted. |
| Sorting.SortByKey | Presentation/Controllers/ProductsController.cs:40 | Ordering is a permutation of its input (same multiset). |
| Sorting.SortByKeySorted | Presentation/Controllers/CategoriesController.cs:37 | Under a total preorder, the ordered sequence is sorted by the key. |
| Listing.Wrap32 | Presentation/Controllers/ProductsController.cs:41 | Unchecked `int` arithmetic gives the 32-bit value congruent to the exact result, and the exact result itself when that fits. |
| Listing.OffsetAsWritten | Presentation/Controllers/ProductsController.cs:41 | The skip count as computed is the `int` congruent to `(page - 1) * pageSize` modulo 2^32, which pins it for every input. It equals `(page - 1) * pageSize` whenever nothing overflows. |
| Listing.Window | Presentation/Controllers/ProductsController.cs:41-42 | `Skip(offset).Take(pageSize)` holds `min(max(0, pageSize), max(0, n - max(0, offset)))` items. They are the items at index `max(0, offset)` onwards. |
| Listing.WindowShape | Presentation/Controllers/CategoriesController.cs:38-39 | At a non-negative offset and size the window has the count formula and starts at the offset. A non-positive size gives no items. A non-positive offset gives the first `pageSize` items. |
| Listing.WindowIsSlice | Presentation/Controllers/CategoriesController.cs:38-39 | The window is the contiguous slice of the ordered items at its start. |
| Listing.TakePage | Presentation/Controllers/CategoriesController.cs:35-43 | The reply echoes total, page and size. For `page >= 1` and `pageSize >= 0` it holds `min(pageSize, max(0, n - (page - 1) * pageSize))` items, taken consecutively from index `(page - 1) * pageSize`. A non-positive size gives no items. A page before the first gives the first page. |
| Listing.TakePageAsWritten | Presentation/Controllers/ProductsController.cs:38-47 | The page as the code computes it, for every input: the run of the ordered items starting at the wrapped skip count (or at 0 when that is negative), `min(max(0, pageSize), max(0, n - start))` items long. It agrees with the exact page whenever the skip count fits in an `int`. |
| Listing.OverflowServesFirstPage | Presentation/Controllers/ProductsController.cs:41 | Page 1073741825 of size 4 should be empty. The computed skip count wraps to 0, so the code serves the first four items. |
| Listing.TakePageIsSlice | Presentation/Controllers/ProductsController.cs:39-43 | A page is a contiguous slice of what it is cut from, and is sorted when that is. |
| Listing.Paginate | Presentation/Controllers/ProductsController.cs:38-47 | `total` is the filtered count. The items are the page of the filtered items, ordered by the key, with the count formula and the start index above. |
| Listing.PaginateAsWritten | Presentation/Controllers/ProductsController.cs:38-43 | The pipeline with the wrapping skip count: total and paging are echoed, and the items are the run of the ordered filtered items at the wrapped skip count (0 when negative), with the count formula at that start. It equals the exact pipeline whenever the skip count fits in an `int`. |
| Listing.PageItemsFromFiltered | Presentation/Controllers/CategoriesController.cs:33-40 | Every listed item is a filtered item, never listed more often than it occurs. |
| Listing.PaginateSorted | Presentation/Controllers/CategoriesController.cs:37-40 | Under a total preorder, every page is ordered by the key. |
| Http.QueryInt | Presentation/Controllers/ProductsController.cs:27 | An absent query parameter takes its declared default, and a present one its value. |
| ProductsController.Matches | Presentation/Controllers/ProductsController.cs:35 | A product matches exactly when the query occurs at some index of its name, or of its description when that is not null. |
| ProductsController.FilterProducts | Presentation/Controllers/ProductsController.cs:33-36 | A blank or absent `q` keeps every product. Otherwise each kept product contains `q` in its name or its non-null description, every such product is kept, and nothing else is. Each kept product occurs exactly as often as in the input. |
| ProductsController.NewerOrSameIsTotalPreorder | Presentation/Controllers/ProductsController.cs:40 | Descending creation-time order is a total preorder. |
| ProductsController.ListProducts | Presentation/Controllers/ProductsController.cs:38-43 | Page and size are echoed. For `page >= 1` and `pageSize >= 0` the item count is `min(pageSize, max(0, total - (page - 1) * pageSize))`. |
| ProductsController.ListProductsAsWritten | Presentation/Controllers/ProductsController.cs:29-43 | The listing with the skip count computed in wrapping `int` arithmetic. The total is the filtered count. The items are the run of the newest-first filtered products at the wrapped skip count (0 when negative), with the count formula at that start. It equals `ListProducts` whenever `(page - 1) * pageSize` fits in an `int`. |
| ProductsController.ListedHaveCategories | Presentation/Controllers/ProductsController.cs:29-45 | Under referential integrity every listed product has the stored category its `CategoryId` names attached, so its DTO carries that category's name. |
| ProductsController.ListedFromStore | Presentation/Controllers/ProductsController.cs:29-43 | Every listed product is one of the loaded products, each a stored product with its category attached. |
| ProductsController.StoredCategoryOf | Infrastructure/Repositories/ProductRepository.cs:17-20 | Under referential integrity a loaded product carries the stored category whose id is its `CategoryId`. |
| ProductsController.LoadedNameStoredCategories | Application/Mappings/MappingProfile.cs:12-13 | Under referential integrity the DTO of a loaded product carries the name of the stored category its `CategoryId` names. |
| ProductsController.Get | Presentation/Controllers/ProductsController.cs:27-48 | Absent paging defaults to page 1 of size 10, and the reply echoes both values. The total is the listing's total. The items are the DTOs of the listed products, index by index. Under referential integrity each item's category name is that of the stored category its `CategoryId` names. |
| ProductsController.ListUnfiltered | Presentation/Controllers/ProductsController.cs:33-38 | With a blank `q`, `total` is the number of stored products. |
| ProductsController.ListFiltered | Presentation/Controllers/ProductsController.cs:35-38 | With a search term, every listed product matches it, and `total` counts exactly the stored products that match. |
| ProductsController.ListComplete | Presentation/Controllers/ProductsController.cs:35-38 | Every stored product that matches is among the counted ones, with its category attached. |
| ProductsController.ListTotalIgnoresPaging | Presentation/Controllers/ProductsController.cs:38 | `total` does not depend on `page` or `pageSize`. |
| ProductsController.ListNewestFirst | Presentation/Controllers/ProductsController.cs:40 | Listed products have non-increasing creation times. |
| ProductsController.ListIsContiguousRun | Presentation/Controllers/ProductsController.cs:39-43 | For `page >= 1` and `pageSize >= 0`, the listed products are the consecutive run of the sorted filtered products starting at index `(page - 1) * pageSize`. |
| ProductsController.GetById | Presentation/Controllers/ProductsController.cs:50-58 | The reply is NotFound exactly when no product has the id. Otherwise it carries the shared members of the first stored product with that id. Under referential integrity its category name is that of the stored category its `CategoryId` names. |
| ProductsController.NewFromDto | Presentation/Controllers/ProductsController.cs:64 | The created product takes the body's shared members, the assigned id and the creation time, and has no category or thumbnail. |
| ProductsController.Create | Presentation/Controllers/ProductsController.cs:60-69 | Whatever category the body names, the reply is Created under the new id, with the body under that id and no category name. A product with the body's shared members, created now and with no category, is appended after the existing rows. The categories and users are unchanged. |
| ProductsController.Update | Presentation/Controllers/ProductsController.cs:71-84 | Differing path and body ids give BadRequest before any lookup. An unknown id gives NotFound. Both leave the store unchanged. Otherwise the reply is NoContent and only the product with that id is overwritten by the body, whatever category the body names. |
| ProductsController.Delete | Presentation/Controllers/ProductsController.cs:86-95 | The reply is NotFound with no change exactly when the id is unknown. Otherwise that product is removed and the other tables are unchanged. |
| ProductsController.UpdateKeepsCreatedAt | Presentation/Controllers/ProductsController.cs:80 | Update never rewrites any product's creation time. |
| ProductsController.UpdateThenGetById | Presentation/Controllers/ProductsController.cs:71-84 | After a successful update, reading the product back gives the body, apart from the category name. |
| ProductsController.UpdateKeepsValid | Presentation/Controllers/ProductsController.cs:71-84 | Update keeps the store valid when the body names a stored category. |
| ProductsController.DeleteRemovesExactly | Presentation/Controllers/ProductsController.cs:88-95 | Deleting an existing id removes exactly one product. Every other product keeps its multiplicity, and under unique ids the id is gone. |
| ProductsController.DeleteTwice | Presentation/Controllers/ProductsController.cs:88-95 | A second delete of the same id gives NotFound and changes nothing. |
| ProductsController.DeleteKeepsValid | Presentation/Controllers/ProductsController.cs:86-95 | Deleting a product keeps the store valid. |
| ProductsController.CreateThenGetById | Presentation/Controllers/ProductsController.cs:60-69 | Reading a created product back by its new id gives the body under that id, apart from the category name. |
| ProductsController.CreateKeepsValid | Presentation/Controllers/ProductsController.cs:60-69 | Creating a product under a fresh id in a stored category keeps the store valid. |
| CategoriesController.Matches | Presentation/Controllers/CategoriesController.cs:33 | A category matches exactly when the query occurs at some index of its name. |
| CategoriesController.FilterCategories | Presentation/Controllers/CategoriesController.cs:32-33 | A blank or absent `q` keeps every category. Otherwise the result is exactly the categories whose name contains `q`, with their multiplicities. |
| CategoriesController.ListCategories | Presentation/Controllers/CategoriesController.cs:35-40 | Page and size are echoed. A blank `q` gives `total` equal to the number of categories. For `page >= 1` and `pageSize >= 0` the count formula holds. |
| CategoriesController.ListCategoriesAsWritten | Presentation/Controllers/CategoriesController.cs:29-40 | The listing with the skip count computed in wrapping `int` arithmetic. The total is the filtered count. The items are the run of the name-ordered filtered categories at the wrapped skip count (0 when negative), with the count formula at that start. It equals `ListCategories` whenever `(page - 1) * pageSize` fits in an `int`. |
| CategoriesController.Get | Presentation/Controllers/CategoriesController.cs:26-44 | Absent paging defaults to page 1 of size 10, and the reply echoes both values. The total is the listing's total. The items are the DTOs of the listed categories, index by index. |
| CategoriesController.ListFiltered | Presentation/Controllers/CategoriesController.cs:33-35 | With a search term, every listed category's name contains it, and `total` counts exactly the stored categories whose name does. |
| CategoriesController.ListTotalIgnoresPaging | Presentation/Controllers/CategoriesController.cs:35 | `total` does not depend on `page` or `pageSize`. |
| CategoriesController.ListInNameOrder | Presentation/Controllers/CategoriesController.cs:37 | Under a total-preorder comparer, listed categories are in non-decreasing name order. |
| CategoriesController.GetById | Presentation/Controllers/CategoriesController.cs:46-54 | The reply is NotFound exactly when no category has the id. Otherwise it is the DTO of the first category with that id. |
| CategoriesController.Create | Presentation/Controllers/CategoriesController.cs:56-65 | The reply is Created with the body under the new id. A category with the body's members under that id and no products is appended after the existing rows. The other tables are unchanged. |
| CategoriesController.Update | Presentation/Controllers/CategoriesController.cs:67-80 | Differing ids give BadRequest, and an unknown id gives NotFound, both with an unchanged store. Otherwise the reply is NoContent and only that category is overwritten. |
| CategoriesController.Delete | Presentation/Controllers/CategoriesController.cs:82-91 | The reply is NotFound with no change exactly when the id is unknown. Otherwise that category is removed and the products and users are left as they were, including products that still name it. The store stays valid only when no product does (see `DeleteUnusedKeepsValid`). |
| CategoriesController.UpdateThenGetById | Presentation/Controllers/CategoriesController.cs:67-80 | After a successful update, reading the category back gives exactly the body. |
| CategoriesController.UpdateKeepsValid | Presentation/Controllers/CategoriesController.cs:67-80 | Updating a category keeps the store valid. |
| CategoriesController.DeleteRemovesExactly | Presentation/Controllers/CategoriesController.cs:86-90 | Deleting an existing id removes exactly one category. The others keep their multiplicities, and under unique ids the id is gone. |
| CategoriesController.DeleteUnusedKeepsValid | Presentation/Controllers/CategoriesController.cs:82-91 | Deleting a category that no product references keeps the store valid. |
| CategoriesController.DeleteTwice | Presentation/Controllers/CategoriesController.cs:84-91 | A second delete of the same id gives NotFound and changes nothing. |
| CategoriesController.CreateThenGetById | Presentation/Controllers/CategoriesController.cs:56-65 | Reading a created category back by its new id gives exactly the body under that id. |
| CategoriesController.CreateKeepsValid | Presentation/Controllers/CategoriesController.cs:56-65 | Creating a category under a fresh id keeps the store valid. |
| AuthController.Register | Presentation/Controllers/AuthController.cs:28-40 | Register appends one user with the request's username and email, the password stored verbatim, and role "User". It replies Ok with the fixed message and changes nothing else. |
| AuthController.RegisterKeepsValid | Presentation/Controllers/AuthController.cs:31-38 | Registering under a fresh id keeps the store valid. |
| AuthController.BuildClaims | Presentation/Controllers/AuthController.cs:48-54 | Exactly four claims: NameIdentifier (the id's `int.ToString()`), Email, Name (the username), and Role, which is the stored role or "User" when it is null. |
| AuthController.ClaimsIdentifyUser | Presentation/Controllers/AuthController.cs:50 | The NameIdentifier claim parses back to the user's id. Two users share it exactly when they share the id. |
| AuthController.Expiry | Presentation/Controllers/AuthController.cs:63 | The token expires exactly 24 hours (86400 seconds) after issue. |
| AuthController.Login | Presentation/Controllers/AuthController.cs:42-76 | The reply is Unauthorized exactly when no user has the username. Otherwise the token and the body describe the first user with it: its claims, username, email and raw role. The expiry is now + 24h, the issuer and audience come from the settings, and the store never changes. |
| AuthController.LoginIgnoresPassword | Presentation/Controllers/AuthController.cs:43-46 | Two requests with the same username get the same reply, whatever their passwords. |
| AuthController.RegisterThenLogin | Presentation/Controllers/AuthController.cs:28-76 | After registering an unused username, login with it succeeds with any password. The token names the new id and role "User". |
| AuthController.DuplicateRegistrationShadowed | Presentation/Controllers/AuthController.cs:28-46 | Registering a username that is already taken still succeeds, but login goes on answering for the earlier user. |
| AuthController.FirstUserUnchangedByAppend | Presentation/Controllers/AuthController.cs:45 | Appending a user does not change which user an already-matched username finds. |
| Scenarios.Catalog | Infrastructure/Data/SeedData.cs:15-67 | The two-category, two-product catalog is a valid store. |
| Scenarios.CatalogWithCategories | Infrastructure/Repositories/ProductRepository.cs:17-20 | Loading that catalog's products attaches each one's category. |
| Scenarios.CatalogNewestFirst | Presentation/Controllers/ProductsController.cs:40 | The later-created product sorts first. |
| Scenarios.DefaultListingNewestFirst | Presentation/Controllers/ProductsController.cs:27-48 | The default listing of that catalog has total 2, page 1 and size 10. It shows the phone and then the laptop, each with its category name. |
| Scenarios.NullRoleClaimDiffersFromBody | Presentation/Controllers/AuthController.cs:53-74 | For a user with a null role, the role claim is "User" while the reply's `role` stays null. |

## Left out

- JWT signing and serialisation (HS256 per section 3.2 of RFC 7518, compact form per RFC 7519) are left out. They are a foreign library, so a token here is its issuer, audience, claims and expiry, and the `Jwt:Key` signing key does not appear in it.
- The `[Authorize(Roles = "Admin")]` gate on Create, Update and Delete is left out. The framework enforces it before the action runs.
- Dependency injection, EF Core setup, CORS, Swagger, JWT-bearer validation, the exception middleware and the schema migration are framework plumbing or I/O.
- `OrderItem` is left out. It is used nowhere in the core.
- async/`Task` is left out. Every action is a single sequential step.
- The generic `Repository<T>`, `User.cs` and `CategoryDto.cs` are not part of this model. Their shapes are reconstructed from how the shown code uses them, as described above.
- The database's collation for `Slug ==` and its default row order are left out. Lookups use exact equality and store order.
- The culture rules of the category name ordering are left out. The comparer is a parameter, and ordering is proved only for a comparer that is a total preorder.
- Sorting.SortByKey: the contract states permutation and (with `SortByKeySorted`) order. It does not state that ties keep input order, although LINQ's `OrderBy` is stable and the model's insertion sort is too.
- The difference between `DateTime.Now` (the token expiry) and `DateTime.UtcNow` (the product default) is left out. Both are the integer `now` supplied by the caller.
- Store-side failures are left out: a product create or update naming a missing category, a category delete that products still reference (cascade or foreign-key error), and duplicate usernames rejected by an index. `UpdateKeepsValid` and `DeleteUnusedKeepsValid` state validity only under the conditions that exclude them.
- ProductsController.ListProducts: uses the exact skip count `(page - 1) * pageSize`, the corrected behaviour of the Findings row below. The code wraps it in 32-bit `int` arithmetic; `ListProductsAsWritten` models that and agrees whenever the skip count fits in an `int`.
- ProductsController.Get: pages through `ListProducts`, so it serves the corrected page where the code's wrapped skip count would serve another (see `ListProductsAsWritten` and the Findings row).
- ProductsController.ListIsContiguousRun: states the run at the exact skip count, which is where the code's page starts only when `(page - 1) * pageSize` fits in an `int`.
- CategoriesController.ListCategories: uses the exact skip count, the corrected behaviour of the Findings row. `ListCategoriesAsWritten` models the wrapping computation and agrees whenever the skip count fits in an `int`.
- CategoriesController.Get: pages through `ListCategories`, so it serves the corrected page where the code's wrapped skip count would serve another (see `ListCategoriesAsWritten`).
- CategoriesController.Delete: the store's reaction to deleting a category that products still reference is left out. It is set by the relationship's delete behaviour, which is not part of this model: EF Core's convention for a required key deletes those products too, and a restricting constraint would refuse. The model removes only the category row, so those products would dangle, and it promises validity only for an unreferenced category.
- CategoriesController.Create: a body with a nonzero `Id` is mapped as is, and the key is a SQL Server identity column, so in the source `SaveChangesAsync` fails (explicit values cannot be inserted into an identity column) and the exception middleware answers with an error. The model ignores the body's id and answers Created under a fresh id.
- AuthController.Login: the Ok reply assumes a configured `Jwt:Key` long enough for HS256. With a missing or short key the token handler throws, and the exception middleware answers instead; the model does not promise anything for that configuration.
- ProductsController.Create: a body with a nonzero `Id` is mapped as is, and the key is a SQL Server identity column, so in the source `SaveChangesAsync` fails and the exception middleware answers with an error. The model ignores the body's id and answers Created under a fresh id. A body whose `CategoryId` names no stored category also gets Created here, while the database's required foreign key makes `SaveChangesAsync` fail and the exception middleware answer with an error. `CreateKeepsValid` promises validity only when the category is stored.
- ProductsController.Update: a body whose `CategoryId` names no stored category gets NoContent here and leaves a dangling foreign key. In the source the required foreign key makes `SaveChangesAsync` fail and the exception middleware answers with an error. `UpdateKeepsValid` promises validity only when the category is stored.
- ProductRepository.GetProductsWithCategory: `Include` of the required category is an inner join, so in the source a product whose `CategoryId` names no category is dropped. The model keeps it, without a category; the two agree on every store with referential integrity, which the database's foreign key guarantees.
- EF Core's relationship fix-up is left out. In a tracked `Include` query EF also fills the inverse navigation, so an attached category's `Products` and a loaded product's `Category` may be populated. The model attaches stored rows with empty navigations. Neither navigation reaches the DTOs, so no reply differs.
- AuthController.Register follows the code and stores the password verbatim, and Login never compares it. It does not model a hashed or checked password, because the code has neither.
- AutoMapper's internals are left out. A missing category gives an absent `CategoryName` rather than being modelled through the library's null propagation.

## Findings

| source | as written | input that shows it | evidently intended | confidence | as-written member | corrected member |
|---|---|---|---|---|---|---|
| Presentation/Controllers/ProductsController.cs:41 (and Presentation/Controllers/CategoriesController.cs:38) | `(page - 1) * pageSize` is unchecked 32-bit `int` arithmetic, so the skip count wraps | `page = 1073741825`, `pageSize = 4`: the exact skip count 4294967296 wraps to 0, and the first four items are served instead of an empty page | the skip count is the exact index of the page's first item, so pages past the end are empty | not executed | Listing.TakePageAsWritten, Listing.OverflowServesFirstPage | Listing.TakePage, Listing.Paginate |

=== FILE: auth_controller.dfy ===
/** AuthController's two actions (AuthController.cs): registration appends a user, login looks a
    user up by username and issues a token carrying four claims that expires 24 hours after the
    clock reading. Token signing and serialisation are out of scope: a token here is its issuer,
    audience, claims and expiry. */
module AuthController {
  import opened Optional
  import opened Seqs
  import opened Text
  import opened Entities
  import opened Persistence
  import opened UserRepository
  import opened Http

  /** The request body of both actions. */
  datatype UserDto = UserDto(username: string, email: string, password: string)

  /** The role every registered user gets, and the role claim of a user whose role is null. */
  const DefaultRole: string := "User"
  const RegisteredMessage: string := "User registered successfully"

  /** `POST api/auth/register`: appends a user built from the body under a fresh store-assigned
      id, with role "User" and the password stored as given, and answers Ok with a message. No
      check is made for an existing username or email. */
  function Register(s: Store, dto: UserDto, newId: int): (r: Step<string>)
    requires !HasId(s.users, IdOfUser, newId)
    ensures r.reply == Ok(RegisteredMessage)
    ensures |r.store.users| == |s.users| + 1 && r.store.users[..|s.users|] == s.users
    ensures var u := r.store.users[|s.users|];
      && u.id == newId && u.username == dto.username && u.email == dto.email
      && u.passwordHash == dto.password && u.role == Some(DefaultRole)
    ensures r.store.products == s.products && r.store.categories == s.categories
  {
    var u := User(newId, dto.username, dto.email, dto.password, Some(DefaultRole));
    Step(Ok(RegisteredMessage), s.(users := s.users + [u]))
  }

  /** Registration keeps the store valid: the new id is fresh and no foreign key changes. */
  lemma RegisterKeepsValid(s: Store, dto: UserDto, newId: int)
    requires Valid(s)
    requires !HasId(s.users, IdOfUser, newId)
    ensures Valid(Register(s, dto, newId).store)
  {
    var u := User(newId, dto.username, dto.email, dto.password, Some(DefaultRole));
    AppendKeepsUniqueIds(s.users, IdOfUser, u);
    assert Register(s, dto, newId).store.users == s.users + [u];
  }

  datatype ClaimType = NameIdentifier | Email | Name | Role

  datatype Claim = Claim(claimType: ClaimType, value: string)

  /** The claims a login token carries: the id in decimal, the email, the username, and the role
      with "User" standing in for a null role. */
  function BuildClaims(u: User): (r: seq<Claim>)
    ensures |r| == 4
    ensures r[0].claimType == NameIdentifier && r[1].claimType == Email
         && r[2].claimType == Name && r[3].claimType == Role
    ensures r[0].value == IntToString(u.id)
    ensures r[1].value == u.email && r[2].value == u.username
    ensures u.role.Some? ==> r[3].value == u.role.value
    ensures u.role.None? ==> r[3].value == DefaultRole
  {
    [ Claim(NameIdentifier, IntToString(u.id)),
      Claim(Email, u.email),
      Claim(Name, u.username),
      Claim(Role, u.role.ValueOr(DefaultRole)) ]
  }

  /** The NameIdentifier claim identifies the user: parsing it gives back the id, so distinct
      ids never share a claim value. */
  lemma ClaimsIdentifyUser(u: User, v: User)
    ensures ParseInt(BuildClaims(u)[0].value) == u.id
    ensures BuildClaims(u)[0].value == BuildClaims(v)[0].value <==> u.id == v.id
  {
    ParseIntToString(u.id);
    if BuildClaims(u)[0].value == BuildClaims(v)[0].value {
      IntToStringInjective(u.id, v.id);
    }
  }

  const HoursValid: int := 24
  const SecondsPerHour: int := 3600

  /** `DateTime.Now.AddHours(24)`, with clock readings in seconds. */
  function Expiry(now: int): (r: int)
    ensures r > now
    ensures r - now == HoursValid * SecondsPerHour
  {
    now + HoursValid * SecondsPerHour
  }

  /** The `Jwt:Issuer` and `Jwt:Audience` settings, each possibly missing. */
  datatype JwtSettings = JwtSettings(issuer: Option<string>, audience: Option<string>)

  datatype Token = Token(issuer: Option<string>, audience: Option<string>, claims: seq<Claim>, expires: int)

  /** The login reply body. `role` is the stored role as it is, possibly null. */
  datatype LoginResponse = LoginResponse(token: Token, username: string, email: string, role: Option<string>)

  /** `POST api/auth/login` at clock reading `now`: Unauthorized exactly when no user has the
      username; otherwise a token for the first user with that username. The body's password
      and email are not consulted, and the store is never changed. */
  function Login(s: Store, settings: JwtSettings, dto: UserDto, now: int): (r: Step<LoginResponse>)
    ensures r.store == s
    ensures r.reply.Ok? || r.reply.Unauthorized?
    ensures r.reply.Unauthorized? <==> forall i | 0 <= i < |s.users| :: s.users[i].username != dto.username
    ensures r.reply.Ok? ==> exists i | 0 <= i < |s.users| ::
      && s.users[i].username == dto.username
      && (forall j | 0 <= j < i :: s.users[j].username != dto.username)
      && r.reply.body.token.claims == BuildClaims(s.users[i])
      && r.reply.body.email == s.users[i].email
      && r.reply.body.role == s.users[i].role
    ensures r.reply.Ok? ==> r.reply.body.username == dto.username
    ensures r.reply.Ok? ==> r.reply.body.token.expires == Expiry(now)
    ensures r.reply.Ok? ==>
      r.reply.body.token.issuer == settings.issuer && r.reply.body.token.audience == settings.audience
  {
    match GetByUsername(s.users, dto.username)
    case None => Step(Unauthorized, s)
    case Some(u) =>
      var token := Token(settings.issuer, settings.audience, BuildClaims(u), Expiry(now));
      Step(Ok(LoginResponse(token, u.username, u.email, u.role)), s)
  }

  /** The password in the body plays no part: two requests with the same username get the same
      reply. */
  lemma LoginIgnoresPassword(s: Store, settings: JwtSettings, dto: UserDto, other: UserDto, now: int)
    requires other.username == dto.username
    ensures Login(s, settings, dto, now) == Login(s, settings, other, now)
  {
  }

  /** Registering a username nobody has, then logging in with it (with any password), issues a
      token for the new user: its id, and role "User" both in the claim and in the body. */
  lemma RegisterThenLogin(s: Store, dto: UserDto, newId: int, settings: JwtSettings, login: UserDto, now: int)
    requires !HasId(s.users, IdOfUser, newId)
    requires forall i | 0 <= i < |s.users| :: s.users[i].username != dto.username
    requires login.username == dto.username
    ensures var r := Login(Register(s, dto, newId).store, settings, login, now).reply;
      && r.Ok?
      && ParseInt(r.body.token.claims[0].value) == newId
      && r.body.token.claims[3] == Claim(Role, DefaultRole)
      && r.body.role == Some(DefaultRole)
      && r.body.email == dto.email
  {
    var after := Register(s, dto, newId).store;
    var u := after.users[|s.users|];
    var r := Login(after, settings, login, now).reply;
    assert after.users[|s.users|].username == login.username;
    var i :| 0 <= i < |after.users| && after.users[i].username == login.username
      && (forall j | 0 <= j < i :: after.users[j].username != login.username)
      && r.body.token.claims == BuildClaims(after.users[i])
      && r.body.email == after.users[i].email
      && r.body.role == after.users[i].role;
    assert i == |s.users|;
    ClaimsIdentifyUser(u, u);
  }

  /** Registering a username that is already taken succeeds, but login keeps answering for the
      earlier user: the new account's token is never issued by username. */
  lemma DuplicateRegistrationShadowed(s: Store, dto: UserDto, newId: int, settings: JwtSettings, now: int)
    requires !HasId(s.users, IdOfUser, newId)
    requires exists i | 0 <= i < |s.users| :: s.users[i].username == dto.username
    ensures Register(s, dto, newId).reply.Ok?
    ensures Login(Register(s, dto, newId).store, settings, dto, now).reply
         == Login(s, settings, dto, now).reply
  {
    var after := Register(s, dto, newId).store;
    assert after.users[..|s.users|] == s.users;
    FirstUserUnchangedByAppend(s.users, after.users[|s.users|], dto.username);
    assert after.users == s.users + [after.users[|s.users|]];
  }

  /** Appending a user after an existing match does not change which user a username finds. */
  lemma FirstUserUnchangedByAppend(users: seq<User>, u: User, username: string)
    requires exists i | 0 <= i < |users| :: users[i].username == username
    ensures GetByUsername(users + [u], username) == GetByUsername(users, username)
  {
    FirstIndexAppend(users, u, UsernameIs(username));
  }
}

=== FILE: categories_controller.dfy ===
/** CategoriesController's actions (CategoriesController.cs) as functions from a request and
    the store to a reply and the next store. The culture-sensitive string comparer that orders
    categories by name is a parameter, `nameLe`. The `Admin` role gate on Create, Update and
    Delete is enforced by the framework before the action runs. */
module CategoriesController {
  import opened Optional
  import opened Seqs
  import opened Sorting
  import opened Text
  import opened Entities
  import opened Persistence
  import opened Mapping
  import opened Listing
  import opened Http

  const DefaultPage: int := 1
  const DefaultPageSize: int := 10

  /** The search: `q` occurs (ordinal) in the name. */
  function Matches(c: Category, q: string): (r: bool)
    ensures r <==> exists i :: OccursAt(c.name, q, i)
  {
    Contains(c.name, q)
  }

  function MatchesQuery(q: string): Category -> bool {
    (c: Category) => Matches(c, q)
  }

  /** The optional filter: a blank or absent `q` keeps everything. */
  function FilterCategories(cs: seq<Category>, q: Option<string>): (r: seq<Category>)
    ensures IsNullOrWhiteSpace(q) ==> r == cs
    ensures !IsNullOrWhiteSpace(q) ==> forall i | 0 <= i < |r| :: Matches(r[i], q.value)
    ensures !IsNullOrWhiteSpace(q) ==> forall c | c in cs && Matches(c, q.value) :: c in r
    ensures !IsNullOrWhiteSpace(q) ==> forall c ::
      multiset(r)[c] == if Matches(c, q.value) then multiset(cs)[c] else 0
  {
    if IsNullOrWhiteSpace(q) then cs else Filter(cs, MatchesQuery(q.value))
  }

  function NameOf(c: Category): string {
    c.name
  }

  /** The listing behind `Get`, before the items are projected to DTOs. */
  function ListCategories(s: Store, page: int, pageSize: int, q: Option<string>, nameLe: (string, string) -> bool)
    : (r: Page<Category>)
    ensures r.page == page && r.pageSize == pageSize
    ensures IsNullOrWhiteSpace(q) ==> r.total == |s.categories|
    ensures page >= 1 && pageSize >= 0 ==>
      |r.items| == Min(pageSize, Max(0, r.total - Offset(page, pageSize)))
  {
    Paginate(FilterCategories(s.categories, q), NameOf, nameLe, page, pageSize)
  }

  /** The listing exactly as the action computes it, with the wrapping `int` skip count. It is
      `ListCategories` whenever `(page - 1) * pageSize` fits in an `int`. */
  function ListCategoriesAsWritten(s: Store, page: int, pageSize: int, q: Option<string>, nameLe: (string, string) -> bool)
    : (r: Page<Category>)
    requires IsInt32(page) && IsInt32(pageSize)
    ensures r.total == |FilterCategories(s.categories, q)|
    ensures r.page == page && r.pageSize == pageSize
    ensures |r.items| == Min(Max(0, pageSize), Max(0, r.total - Max(0, OffsetAsWritten(page, pageSize))))
    ensures RunAt(r.items, SortByKey(FilterCategories(s.categories, q), NameOf, nameLe),
                  Max(0, OffsetAsWritten(page, pageSize)))
    ensures IsInt32(page - 1) && IsInt32((page - 1) * pageSize) ==>
      r == ListCategories(s, page, pageSize, q, nameLe)
  {
    PaginateAsWritten(FilterCategories(s.categories, q), NameOf, nameLe, page, pageSize)
  }

  /** `GET api/categories?page=&pageSize=&q=`: echoes the paging (default page 1 of size 10) and
      returns the total and the DTOs of the listed categories, in order. */
  function Get(s: Store, page: Option<int>, pageSize: Option<int>, q: Option<string>, nameLe: (string, string) -> bool)
    : (r: Page<CategoryDto>)
    ensures r.page == QueryInt(page, DefaultPage) && r.pageSize == QueryInt(pageSize, DefaultPageSize)
    ensures page.None? ==> r.page == 1
    ensures pageSize.None? ==> r.pageSize == 10
    ensures r.total == ListCategories(s, r.page, r.pageSize, q, nameLe).total
    ensures |r.items| == |ListCategories(s, r.page, r.pageSize, q, nameLe).items|
    ensures forall i | 0 <= i < |r.items| ::
      r.items[i] == ToCategoryDto(ListCategories(s, r.page, r.pageSize, q, nameLe).items[i])
  {
    var listed := ListCategories(s, QueryInt(page, DefaultPage), QueryInt(pageSize, DefaultPageSize), q, nameLe);
    Page(listed.total, listed.page, listed.pageSize, Map(listed.items, ToCategoryDto))
  }

  /** With a search term every listed category's name contains it, and `total` counts exactly
      the stored categories whose name contains it. */
  lemma ListFiltered(s: Store, page: int, pageSize: int, q: Option<string>, nameLe: (string, string) -> bool)
    requires !IsNullOrWhiteSpace(q)
    ensures forall c | c in ListCategories(s, page, pageSize, q, nameLe).items :: Contains(c.name, q.value)
    ensures ListCategories(s, page, pageSize, q, nameLe).total == |Filter(s.categories, MatchesQuery(q.value))|
  {
    PageItemsFromFiltered(FilterCategories(s.categories, q), NameOf, nameLe, page, pageSize);
  }

  /** `total` depends only on the store and the search, never on the paging. */
  lemma ListTotalIgnoresPaging(s: Store, q: Option<string>, nameLe: (string, string) -> bool,
                               page1: int, pageSize1: int, page2: int, pageSize2: int)
    ensures ListCategories(s, page1, pageSize1, q, nameLe).total
         == ListCategories(s, page2, pageSize2, q, nameLe).total
  {
  }

  /** Under a comparer that is a total preorder, listed categories come in name order. */
  lemma ListInNameOrder(s: Store, page: int, pageSize: int, q: Option<string>, nameLe: (string, string) -> bool)
    requires TotalPreorder(nameLe)
    ensures var items := ListCategories(s, page, pageSize, q, nameLe).items;
      forall i, j | 0 <= i < j < |items| :: nameLe(items[i].name, items[j].name)
  {
    PaginateSorted(FilterCategories(s.categories, q), NameOf, nameLe, page, pageSize);
  }

  /** `GET api/categories/{id}`: NotFound exactly when no category has the id; otherwise the
      DTO of the first category with that id. */
  function GetById(s: Store, id: int): (r: Reply<CategoryDto>)
    ensures r.Ok? || r.NotFound?
    ensures r.NotFound? <==> !HasId(s.categories, IdOfCategory, id)
    ensures r.Ok? ==> r.body.id == id
    ensures r.Ok? ==> exists i | 0 <= i < |s.categories| ::
      && s.categories[i].id == id
      && (forall j | 0 <= j < i :: s.categories[j].id != id)
      && SharedCategoryMembersAgree(s.categories[i], r.body)
  {
    match IndexOfId(s.categories, IdOfCategory, id)
    case None => NotFound
    case Some(i) => Ok(ToCategoryDto(s.categories[i]))
  }

  /** `POST api/categories`: appends the body, mapped onto a new category, under a fresh
      store-assigned id, and answers with its DTO. */
  function Create(s: Store, dto: CategoryDto, newId: int): (r: Step<CategoryDto>)
    requires !HasId(s.categories, IdOfCategory, newId)
    ensures r.reply.Created? && r.reply.id == newId
    ensures r.reply.body == dto.(id := newId)
    ensures |r.store.categories| == |s.categories| + 1 && r.store.categories[..|s.categories|] == s.categories
    ensures var c := r.store.categories[|s.categories|];
      SharedCategoryMembersAgree(c, dto.(id := newId)) && c.products == []
    ensures r.store.products == s.products && r.store.users == s.users
  {
    var c := ApplyCategoryDto(dto, NewCategory()).(id := newId);
    Step(Created(newId, ToCategoryDto(c)), s.(categories := s.categories + [c]))
  }

  /** `PUT api/categories/{id}`: BadRequest when the path and body ids differ (before any
      lookup), NotFound when no category has the id, otherwise the body overwrites that
      category. Only a NoContent reply changes the store, and only that category. */
  function Update(s: Store, id: int, dto: CategoryDto): (r: Step<CategoryDto>)
    ensures id != dto.id ==> r == Step(BadRequest, s)
    ensures id == dto.id && !HasId(s.categories, IdOfCategory, id) ==> r == Step(NotFound, s)
    ensures id == dto.id && HasId(s.categories, IdOfCategory, id) ==> r.reply == NoContent
    ensures r.reply.NoContent? ==> exists i | 0 <= i < |s.categories| ::
      && s.categories[i].id == id
      && r.store.categories == s.categories[i := ApplyCategoryDto(dto, s.categories[i])]
    ensures r.store.products == s.products && r.store.users == s.users
  {
    if id != dto.id then Step(BadRequest, s)
    else
      match IndexOfId(s.categories, IdOfCategory, id)
      case None => Step(NotFound, s)
      case Some(i) =>
        Step(NoContent, s.(categories := s.categories[i := ApplyCategoryDto(dto, s.categories[i])]))
  }

  /** `DELETE api/categories/{id}`: NotFound with no change when no category has the id;
      otherwise that category row is removed and no other row of any table changes. */
  function Delete(s: Store, id: int): (r: Step<CategoryDto>)
    ensures r.reply.NotFound? || r.reply.NoContent?
    ensures r.reply.NotFound? <==> !HasId(s.categories, IdOfCategory, id)
    ensures r.reply.NotFound? ==> r.store == s
    ensures r.reply.NoContent? ==> exists i | 0 <= i < |s.categories| ::
      && s.categories[i].id == id
      && r.store.categories == RemoveAt(s.categories, i)
    ensures r.store.products == s.products && r.store.users == s.users
  {
    match IndexOfId(s.categories, IdOfCategory, id)
    case None => Step(NotFound, s)
    case Some(i) => Step(NoContent, s.(categories := RemoveAt(s.categories, i)))
  }

  /** After a successful update, reading the category back gives the body. */
  lemma UpdateThenGetById(s: Store, id: int, dto: CategoryDto)
    requires UniqueIds(s.categories, IdOfCategory)
    requires Update(s, id, dto).reply.NoContent?
    ensures GetById(Update(s, id, dto).store, id) == Ok(dto)
  {
    var i := IndexOfId(s.categories, IdOfCategory, id).value;
    var after := Update(s, id, dto).store;
    ReplaceKeepsUniqueIds(s.categories, IdOfCategory, i, ApplyCategoryDto(dto, s.categories[i]));
    IndexOfOwnId(after.categories, IdOfCategory, i);
  }

  /** Update keeps the store valid: category ids are unchanged, so no foreign key dangles. */
  lemma UpdateKeepsValid(s: Store, id: int, dto: CategoryDto)
    requires Valid(s)
    ensures Valid(Update(s, id, dto).store)
  {
    var r := Update(s, id, dto);
    if r.reply.NoContent? {
      var i := IndexOfId(s.categories, IdOfCategory, id).value;
      var c' := ApplyCategoryDto(dto, s.categories[i]);
      ReplaceKeepsUniqueIds(s.categories, IdOfCategory, i, c');
      forall k | 0 <= k < |s.products|
        ensures HasId(r.store.categories, IdOfCategory, s.products[k].categoryId)
      {
        var j :| 0 <= j < |s.categories| && s.categories[j].id == s.products[k].categoryId;
        assert r.store.categories[j].id == s.categories[j].id;
      }
    }
  }

  /** A successful delete removes exactly one category with that id: every other category
      stays, as often as before, and under unique ids no category with that id is left. */
  lemma DeleteRemovesExactly(s: Store, id: int)
    requires HasId(s.categories, IdOfCategory, id)
    ensures var after := Delete(s, id).store.categories;
      && |after| == |s.categories| - 1
      && (forall c | c in s.categories && c.id != id :: multiset(after)[c] == multiset(s.categories)[c])
      && (UniqueIds(s.categories, IdOfCategory) ==> !HasId(after, IdOfCategory, id))
  {
    var i := IndexOfId(s.categories, IdOfCategory, id).value;
    if UniqueIds(s.categories, IdOfCategory) {
      RemoveKeepsUniqueIds(s.categories, IdOfCategory, i);
    }
  }

  /** Deleting a category that no product points at keeps the store valid. (Deleting one that
      products point at leaves those products to the store's own foreign-key rule.) */
  lemma DeleteUnusedKeepsValid(s: Store, id: int)
    requires Valid(s)
    requires forall k | 0 <= k < |s.products| :: s.products[k].categoryId != id
    ensures Valid(Delete(s, id).store)
  {
    var r := Delete(s, id);
    if r.reply.NoContent? {
      var i := IndexOfId(s.categories, IdOfCategory, id).value;
      RemoveKeepsUniqueIds(s.categories, IdOfCategory, i);
      forall k | 0 <= k < |s.products|
        ensures HasId(r.store.categories, IdOfCategory, s.products[k].categoryId)
      {
        var j :| 0 <= j < |s.categories| && s.categories[j].id == s.products[k].categoryId;
        assert j != i;
        var j' := if j < i then j else j - 1;
        assert r.store.categories[j'] == s.categories[j];
      }
    }
  }

  /** A second delete of the same id finds nothing and changes nothing. */
  lemma DeleteTwice(s: Store, id: int)
    requires UniqueIds(s.categories, IdOfCategory)
    ensures Delete(Delete(s, id).store, id).reply == NotFound
    ensures Delete(Delete(s, id).store, id).store == Delete(s, id).store
  {
    if HasId(s.categories, IdOfCategory, id) {
      DeleteRemovesExactly(s, id);
    }
  }

  /** Reading a created category back by its new id gives the body under that id. */
  lemma CreateThenGetById(s: Store, dto: CategoryDto, newId: int)
    requires UniqueIds(s.categories, IdOfCategory)
    requires !HasId(s.categories, IdOfCategory, newId)
    ensures GetById(Create(s, dto, newId).store, newId) == Ok(dto.(id := newId))
  {
    var after := Create(s, dto, newId).store;
    AppendKeepsUniqueIds(s.categories, IdOfCategory, after.categories[|s.categories|]);
    assert after.categories == s.categories + [after.categories[|s.categories|]];
    IndexOfOwnId(after.categories, IdOfCategory, |s.categories|);
  }

  /** Creating a category under a fresh id keeps the store valid. */
  lemma CreateKeepsValid(s: Store, dto: CategoryDto, newId: int)
    requires Valid(s)
    requires !HasId(s.categories, IdOfCategory, newId)
    ensures Valid(Create(s, dto, newId).store)
  {
    var after := Create(s, dto, newId).store;
    AppendKeepsUniqueIds(s.categories, IdOfCategory, after.categories[|s.categories|]);
    assert after.categories == s.categories + [after.categories[|s.categories|]];
    forall k | 0 <= k < |s.products|
      ensures HasId(after.categories, IdOfCategory, s.products[k].categoryId)
    {
      var j :| 0 <= j < |s.categories| && s.categories[j].id == s.products[k].categoryId;
      assert after.categories[j] == s.categories[j];
    }
  }
}

=== FILE: category_repository.dfy ===
/** CategoryRepository's queries (CategoryRepository.cs) as pure functions over the store. */
module CategoryRepository {
  import opened Optional
  import opened Seqs
  import opened Entities
  import opened Persistence

  predicate IsActiveCategory(c: Category) {
    c.isActive
  }

  /** `GetActiveCategoriesAsync`: exactly the stored categories with `IsActive`, each as often
      as stored. */
  function GetActiveCategories(s: Store): (r: seq<Category>)
    ensures forall c :: c in r <==> c in s.categories && c.isActive
    ensures forall c :: multiset(r)[c] == if c.isActive then multiset(s.categories)[c] else 0
  {
    Filter(s.categories, IsActiveCategory)
  }

  /** The stored products whose foreign key is `id`, each as often as stored. */
  function ProductsOf(s: Store, id: int): (r: seq<Product>)
    ensures forall p :: multiset(r)[p] == if p.categoryId == id then multiset(s.products)[p] else 0
    ensures forall p :: p in r <==> p in s.products && p.categoryId == id
  {
    Filter(s.products, InCategoryOf(id))
  }

  /** `GetCategoryWithProductsAsync`: the first category with `Id == id`, its `Products`
      filled with exactly the stored products pointing at it, or nothing exactly when no
      category has that id. */
  function GetCategoryWithProducts(s: Store, id: int): (r: Option<Category>)
    ensures r.None? <==> !HasId(s.categories, IdOfCategory, id)
    ensures r.Some? ==> r.value.id == id
    ensures r.Some? ==> exists i | 0 <= i < |s.categories| ::
      && s.categories[i].id == id
      && (forall j | 0 <= j < i :: s.categories[j].id != id)
      && r.value.(products := s.categories[i].products) == s.categories[i]
    ensures r.Some? ==> forall p :: p in r.value.products <==> p in s.products && p.categoryId == id
    ensures r.Some? ==> forall p ::
      multiset(r.value.products)[p] == if p.categoryId == id then multiset(s.products)[p] else 0
  {
    match IndexOfId(s.categories, IdOfCategory, id)
    case None => None
    case Some(i) =>
      Some(s.categories[i].(products := ProductsOf(s, id)))
  }

  predicate HasSlug(c: Category, slug: string) {
    c.slug == slug
  }

  /** `GetBySlugAsync`: the first stored category with `Slug == slug`, or nothing exactly when
      no stored category has that slug. */
  function GetBySlug(s: Store, slug: string): (r: Option<Category>)
    ensures r.None? <==> forall i | 0 <= i < |s.categories| :: s.categories[i].slug != slug
    ensures r.Some? ==> exists i | 0 <= i < |s.categories| ::
      && s.categories[i] == r.value
      && s.categories[i].slug == slug
      && forall j | 0 <= j < i :: s.categories[j].slug != slug
  {
    First(s.categories, (c: Category) => HasSlug(c, slug))
  }
}

=== FILE: entities.dfy ===
/** The catalog's entity records (Product.cs, Category.cs) and the user record the auth flow
    builds. Prices are exact integers standing for `decimal`; timestamps are integers. */
module Entities {
  import opened Optional

  /** A product row. `categoryId` is the plain foreign key; `category` is the optional
      navigation that a query may attach. */
  datatype Product = Product(
    id: int,
    name: string,
    shortDescription: Option<string>,
    description: Option<string>,
    price: int,
    discountPrice: Option<int>,
    stock: int,
    categoryId: int,
    category: Option<Category>,
    thumbnailUrl: Option<string>,
    createdAt: int,
    sku: string,
    isActive: bool,
    isFeatured: bool)

  /** A category row. `products` is the back-reference a query may fill with the products
      whose `categoryId` is this category's `id`. */
  datatype Category = Category(
    id: int,
    name: string,
    description: Option<string>,
    products: seq<Product>,
    slug: string,
    isActive: bool)

  /** A user row, with the members the auth controller reads and writes. `role` is nullable. */
  datatype User = User(
    id: int,
    username: string,
    email: string,
    passwordHash: string,
    role: Option<string>)

  /** `new Product()` at clock reading `now`: every member at its declared default. */
  function NewProduct(now: int): (p: Product)
    ensures p.name == "" && p.sku == ""
    ensures p.id == 0 && p.price == 0 && p.stock == 0 && p.categoryId == 0
    ensures p.shortDescription == None && p.description == None && p.discountPrice == None
    ensures p.category == None && p.thumbnailUrl == None
    ensures p.createdAt == now
    ensures !p.isActive && !p.isFeatured
  {
    Product(0, "", None, None, 0, None, 0, 0, None, None, now, "", false, false)
  }

  /** `new Category()`: empty name and slug, no description, no products, inactive. */
  function NewCategory(): (c: Category)
    ensures c.id == 0 && c.name == "" && c.slug == ""
    ensures c.description == None && c.products == []
    ensures !c.isActive
  {
    Category(0, "", None, [], "", false)
  }

  /** The product's foreign key names category `id`. */
  predicate InCategory(p: Product, id: int) {
    p.categoryId == id
  }

  function InCategoryOf(id: int): Product -> bool {
    (p: Product) => InCategory(p, id)
  }
}

=== FILE: http.dfy ===
/** The action results the controllers return, and a controller step over the store. */
module Http {
  import opened Optional
  import opened Persistence

  /** `Ok(body)`, `CreatedAtAction(GetById, {id}, body)`, `NoContent()`, `NotFound()`,
      `BadRequest()` and `Unauthorized()`. */
  datatype Reply<T> =
    | Ok(body: T)
    | Created(id: int, body: T)
    | NoContent
    | NotFound
    | BadRequest
    | Unauthorized

  /** A request's reply together with the store it leaves behind. */
  datatype Step<T> = Step(reply: Reply<T>, store: Store)

  /** A `[FromQuery] int` parameter: the given value, or the declared default when absent. */
  function QueryInt(v: Option<int>, default: int): (r: int)
    ensures v.None? ==> r == default
    ensures v.Some? ==> r == v.value
  {
    v.ValueOr(default)
  }
}

=== FILE: listing.dfy ===
/** The listing pipeline both catalog endpoints share: after the optional filter, count, order
    by a key, then skip `(page - 1) * pageSize` and take `pageSize`. */
module Listing {
  import opened Seqs
  import opened Sorting

  /** The listing response `{ total, page, pageSize, items }`. */
  datatype Page<T> = Page(total: int, page: int, pageSize: int, items: seq<T>)

  const TwoTo32: int := 0x1_0000_0000

  /** The range of C#'s `int`. */
  predicate IsInt32(x: int) {
    -0x8000_0000 <= x < 0x8000_0000
  }

  /** Unchecked C# `int` arithmetic: the 32-bit two's-complement value congruent to `x`. */
  function Wrap32(x: int): (r: int)
    ensures IsInt32(r)
    ensures (x - r) % TwoTo32 == 0
    ensures IsInt32(x) ==> r == x
  {
    var m := x % TwoTo32;
    if m < 0x8000_0000 then m else m - TwoTo32
  }

  /** The skip count `(page - 1) * pageSize` as the controllers compute it: two `int`
      operations, each wrapping on overflow. */
  function OffsetAsWritten(page: int, pageSize: int): (r: int)
    requires IsInt32(page) && IsInt32(pageSize)
    ensures IsInt32(r)
    ensures ((page - 1) * pageSize - r) % TwoTo32 == 0
    ensures IsInt32(page - 1) && IsInt32((page - 1) * pageSize) ==> r == (page - 1) * pageSize
  {
    var w := Wrap32(page - 1);
    var r := Wrap32(w * pageSize);
    MulCongruent(page - 1, w, pageSize);
    CongruentTrans((page - 1) * pageSize, w * pageSize, r);
    r
  }

  /** A multiple of 2^32 is congruent to 0. */
  lemma MultipleCongruent(c: int)
    ensures (c * TwoTo32) % TwoTo32 == 0
  {
  }

  /** Congruence modulo 2^32 survives multiplying both sides by the same factor. */
  lemma MulCongruent(x: int, w: int, k: int)
    requires (x - w) % TwoTo32 == 0
    ensures (x * k - w * k) % TwoTo32 == 0
  {
    var a := (x - w) / TwoTo32;
    assert x - w == a * TwoTo32;
    assert x * k - w * k == (x - w) * k;
    assert x * k - w * k == (a * k) * TwoTo32;
    MultipleCongruent(a * k);
  }

  /** Congruence modulo 2^32 is transitive. */
  lemma CongruentTrans(x: int, y: int, z: int)
    requires (x - y) % TwoTo32 == 0 && (y - z) % TwoTo32 == 0
    ensures (x - z) % TwoTo32 == 0
  {
    var a := (x - y) / TwoTo32;
    var b := (y - z) / TwoTo32;
    assert x - y == a * TwoTo32;
    assert y - z == b * TwoTo32;
    assert x - z == (a + b) * TwoTo32;
    MultipleCongruent(a + b);
  }

  /** The skip count the listing evidently intends: the index of the page's first item. */
  function Offset(page: int, pageSize: int): int {
    (page - 1) * pageSize
  }

  /** Where a window starting at `offset` begins in a sequence of length `len`. */
  function Start(len: nat, offset: int): (k: nat)
    ensures k <= len
  {
    Min(len, Max(0, offset))
  }

  /** The items of one page of `sorted`: LINQ `Skip(offset).Take(pageSize)`. */
  function Window<T>(sorted: seq<T>, offset: int, pageSize: int): (r: seq<T>)
    ensures |r| == Min(Max(0, pageSize), Max(0, |sorted| - Max(0, offset)))
    ensures Start(|sorted|, offset) + |r| <= |sorted|
    ensures forall i | 0 <= i < |r| :: r[i] == sorted[Max(0, offset) + i]
  {
    Take(Skip(sorted, offset), pageSize)
  }

  /** A window is the contiguous slice of `sorted` at its start. */
  lemma WindowIsSlice<T>(sorted: seq<T>, offset: int, pageSize: int)
    ensures Window(sorted, offset, pageSize)
      == sorted[Start(|sorted|, offset)..Start(|sorted|, offset) + |Window(sorted, offset, pageSize)|]
  {
  }

  /** The sign of the skip count in each region of the paging inputs. */
  lemma OffsetSign(page: int, pageSize: int)
    ensures page >= 1 && pageSize >= 0 ==> Offset(page, pageSize) >= 0
    ensures page < 1 && pageSize > 0 ==> Offset(page, pageSize) <= 0
  {
    if page >= 1 && pageSize >= 0 {
      assert (page - 1) * pageSize >= 0;
    }
    if page < 1 && pageSize > 0 {
      assert (page - 1) * pageSize <= 0;
    }
  }

  /** A window at a non-negative offset starts exactly there; at a non-positive offset it is
      a prefix. */
  lemma WindowItems<T>(sorted: seq<T>, offset: int, pageSize: int)
    ensures offset >= 0 ==> forall i | 0 <= i < |Window(sorted, offset, pageSize)| ::
      Window(sorted, offset, pageSize)[i] == sorted[offset + i]
    ensures offset <= 0 ==> forall i | 0 <= i < |Window(sorted, offset, pageSize)| ::
      Window(sorted, offset, pageSize)[i] == sorted[i]
  {
  }

  /** `items` is the run of `sorted` that begins at index `start`. */
  ghost predicate RunAt<T>(items: seq<T>, sorted: seq<T>, start: int) {
    forall i | 0 <= i < |items| :: 0 <= start + i < |sorted| && items[i] == sorted[start + i]
  }

  /** The shape of a window in each region of its inputs, with the offset as a plain number. */
  lemma WindowShape<T>(sorted: seq<T>, offset: int, pageSize: int)
    ensures offset >= 0 && pageSize >= 0 ==>
      |Window(sorted, offset, pageSize)| == Min(pageSize, Max(0, |sorted| - offset))
      && RunAt(Window(sorted, offset, pageSize), sorted, offset)
    ensures pageSize <= 0 ==> Window(sorted, offset, pageSize) == []
    ensures offset <= 0 && pageSize > 0 ==>
      |Window(sorted, offset, pageSize)| == Min(pageSize, |sorted|)
      && RunAt(Window(sorted, offset, pageSize), sorted, 0)
  {
    WindowItems(sorted, offset, pageSize);
  }

  /** Page `page` of size `pageSize` cut from the ordered items, with the given total, in exact
      arithmetic. For `page >= 1` and `pageSize >= 0` the page holds the
      `min(pageSize, max(0, |ordered| - (page - 1) * pageSize))` items of `ordered` starting at
      index `(page - 1) * pageSize`; a non-positive size gives no items, and a page before the
      first gives the first page. */
  function TakePage<T>(total: int, ordered: seq<T>, page: int, pageSize: int): (r: Page<T>)
    ensures r.total == total && r.page == page && r.pageSize == pageSize
    ensures page >= 1 && pageSize >= 0 ==>
      |r.items| == Min(pageSize, Max(0, |ordered| - Offset(page, pageSize)))
    ensures page >= 1 && pageSize >= 0 ==> RunAt(r.items, ordered, Offset(page, pageSize))
    ensures pageSize <= 0 ==> r.items == []
    ensures page < 1 && pageSize > 0 ==> |r.items| == Min(pageSize, |ordered|)
    ensures page < 1 && pageSize > 0 ==> RunAt(r.items, ordered, 0)
  {
    var offset := Offset(page, pageSize);
    OffsetSign(page, pageSize);
    WindowShape(ordered, offset, pageSize);
    Page(total, page, pageSize, Window(ordered, offset, pageSize))
  }

  /** The same step exactly as the controllers compute it, with the wrapping skip count.
      It agrees with `TakePage` whenever `(page - 1) * pageSize` fits in an `int`. */
  function TakePageAsWritten<T>(total: int, ordered: seq<T>, page: int, pageSize: int): (r: Page<T>)
    requires IsInt32(page) && IsInt32(pageSize)
    ensures r.total == total && r.page == page && r.pageSize == pageSize
    ensures |r.items| == Min(Max(0, pageSize), Max(0, |ordered| - Max(0, OffsetAsWritten(page, pageSize))))
    ensures RunAt(r.items, ordered, Max(0, OffsetAsWritten(page, pageSize)))
    ensures IsInt32(page - 1) && IsInt32((page - 1) * pageSize) ==> r == TakePage(total, ordered, page, pageSize)
  {
    Page(total, page, pageSize, Window(ordered, OffsetAsWritten(page, pageSize), pageSize))
  }

  /** Counterexample: page 1073741825 of size 4 starts at index 4294967296, past the end of any
      list a .NET collection can hold, so the intended page is empty; the wrapping skip count is 0, so the controllers
      serve the first four items instead. */
  lemma OverflowServesFirstPage<T>(ordered: seq<T>)
    requires 1 <= |ordered| && IsInt32(|ordered|)
    ensures Offset(1073741825, 4) == 4294967296
    ensures OffsetAsWritten(1073741825, 4) == 0
    ensures TakePage(|ordered|, ordered, 1073741825, 4).items == []
    ensures TakePageAsWritten(|ordered|, ordered, 1073741825, 4).items == Take(ordered, 4)
    ensures Take(ordered, 4) != []
  {
    assert Wrap32(1073741824) == 1073741824;
    assert Wrap32(4294967296) == 0;
  }

  /** `items` is the slice of `whole` that starts at index `a`. */
  ghost predicate SliceAt<T>(items: seq<T>, whole: seq<T>, a: int) {
    0 <= a <= |whole| - |items| && items == whole[a..a + |items|]
  }

  /** A page is a contiguous slice of what it was cut from, and it is in order when that is. */
  lemma TakePageIsSlice<T, K>(total: int, ordered: seq<T>, page: int, pageSize: int, key: T -> K, le: (K, K) -> bool)
    ensures exists a :: SliceAt(TakePage(total, ordered, page, pageSize).items, ordered, a)
    ensures SortedBy(ordered, key, le) ==> SortedBy(TakePage(total, ordered, page, pageSize).items, key, le)
  {
    var offset := Offset(page, pageSize);
    var items := Window(ordered, offset, pageSize);
    WindowIsSlice(ordered, offset, pageSize);
    var a := Start(|ordered|, offset);
    assert TakePage(total, ordered, page, pageSize).items == items;
    assert SliceAt(items, ordered, a);
    if SortedBy(ordered, key, le) {
      SortedSlice(ordered, a, a + |items|, key, le);
    }
  }

  /** The listing pipeline after filtering: `total` is the filtered count, the items are page
      `page` of the filtered items ordered by `key` under `le`. */
  function Paginate<T, K>(filtered: seq<T>, key: T -> K, le: (K, K) -> bool, page: int, pageSize: int)
    : (r: Page<T>)
    ensures r.total == |filtered| && r.page == page && r.pageSize == pageSize
    ensures page >= 1 && pageSize >= 0 ==>
      |r.items| == Min(pageSize, Max(0, r.total - Offset(page, pageSize)))
    ensures page >= 1 && pageSize >= 0 ==>
      RunAt(r.items, SortByKey(filtered, key, le), Offset(page, pageSize))
    ensures pageSize <= 0 ==> r.items == []
    ensures page < 1 && pageSize > 0 ==> |r.items| == Min(pageSize, r.total)
  {
    TakePage(|filtered|, SortByKey(filtered, key, le), page, pageSize)
  }

  /** The listing pipeline after filtering exactly as the controllers compute it, with the
      wrapping skip count. It is the intended listing whenever the skip count fits in an `int`;
      otherwise it is still `pageSize` items at most, cut from the ordered filtered items. */
  function PaginateAsWritten<T, K>(filtered: seq<T>, key: T -> K, le: (K, K) -> bool, page: int, pageSize: int)
    : (r: Page<T>)
    requires IsInt32(page) && IsInt32(pageSize)
    ensures r.total == |filtered| && r.page == page && r.pageSize == pageSize
    ensures |r.items| == Min(Max(0, pageSize), Max(0, r.total - Max(0, OffsetAsWritten(page, pageSize))))
    ensures RunAt(r.items, SortByKey(filtered, key, le), Max(0, OffsetAsWritten(page, pageSize)))
    ensures IsInt32(page - 1) && IsInt32((page - 1) * pageSize) ==>
      r == Paginate(filtered, key, le, page, pageSize)
  {
    TakePageAsWritten(|filtered|, SortByKey(filtered, key, le), page, pageSize)
  }

  /** A slice holds a sub-multiset of the whole, so each of its elements is in the whole. */
  lemma SliceContents<T>(items: seq<T>, whole: seq<T>, a: int)
    requires SliceAt(items, whole, a)
    ensures multiset(items) <= multiset(whole)
    ensures forall x | x in items :: x in whole
  {
    SliceMultiset(whole, a, a + |items|);
  }

  /** Every listed item is one of the filtered items, never more often than it occurs there. */
  lemma PageItemsFromFiltered<T, K>(filtered: seq<T>, key: T -> K, le: (K, K) -> bool, page: int, pageSize: int)
    ensures multiset(Paginate(filtered, key, le, page, pageSize).items) <= multiset(filtered)
    ensures forall x | x in Paginate(filtered, key, le, page, pageSize).items :: x in filtered
  {
    var sorted := SortByKey(filtered, key, le);
    var items := TakePage(|filtered|, sorted, page, pageSize).items;
    TakePageIsSlice(|filtered|, sorted, page, pageSize, key, le);
    var a :| SliceAt(items, sorted, a);
    SliceContents(items, sorted, a);
    assert multiset(sorted) == multiset(filtered);
    forall x | x in items
      ensures x in filtered
    {
      assert x in multiset(sorted);
    }
  }

  /** Under a total preorder the items of every page are in order. */
  lemma PaginateSorted<T, K(!new)>(filtered: seq<T>, key: T -> K, le: (K, K) -> bool, page: int, pageSize: int)
    requires TotalPreorder(le)
    ensures SortedBy(Paginate(filtered, key, le, page, pageSize).items, key, le)
  {
    var sorted := SortByKey(filtered, key, le);
    SortByKeySorted(filtered, key, le);
    TakePageIsSlice(|filtered|, sorted, page, pageSize, key, le);
  }
}

=== FILE: mapping.dfy ===
/** The API's product and category shapes and the member-by-member mappings between them and
    the entities (ProductDto.cs, MappingProfile.cs). */
module Mapping {
  import opened Optional
  import opened Entities

  /** The product shape that crosses the API. It has no `createdAt`, no `thumbnailUrl`
      and no category navigation; `categoryName` is display-only. */
  datatype ProductDto = ProductDto(
    id: int,
    name: string,
    description: Option<string>,
    shortDescription: Option<string>,
    price: int,
    discountPrice: Option<int>,
    stock: int,
    sku: string,
    categoryId: int,
    categoryName: Option<string>,
    isActive: bool,
    isFeatured: bool)

  /** The category shape that crosses the API: the category's scalar members. */
  datatype CategoryDto = CategoryDto(
    id: int,
    name: string,
    description: Option<string>,
    slug: string,
    isActive: bool)

  /** `new ProductDto()`: empty name and SKU, everything else zero, absent or false. */
  function DefaultProductDto(): (d: ProductDto)
    ensures d.name == "" && d.sku == ""
    ensures d.id == 0 && d.price == 0 && d.stock == 0 && d.categoryId == 0
    ensures d.description == None && d.shortDescription == None
    ensures d.discountPrice == None && d.categoryName == None
    ensures !d.isActive && !d.isFeatured
  {
    ProductDto(0, "", None, None, 0, None, 0, "", 0, None, false, false)
  }

  /** The eleven members a Product and a ProductDto share by name hold equal values. */
  predicate SharedMembersAgree(p: Product, d: ProductDto) {
    && p.id == d.id
    && p.name == d.name
    && p.description == d.description
    && p.shortDescription == d.shortDescription
    && p.price == d.price
    && p.discountPrice == d.discountPrice
    && p.stock == d.stock
    && p.sku == d.sku
    && p.categoryId == d.categoryId
    && p.isActive == d.isActive
    && p.isFeatured == d.isFeatured
  }

  /** The attached category's name; absent when no category is attached. */
  function CategoryNameOf(p: Product): (r: Option<string>)
    ensures r.Some? <==> p.category.Some?
    ensures r.Some? ==> r.value == p.category.value.name
  {
    match p.category
    case Some(c) => Some(c.name)
    case None => None
  }

  /** Product -> ProductDto: same-named members copied, `categoryName` from the category. */
  function ToDto(p: Product): (d: ProductDto)
    ensures SharedMembersAgree(p, d)
    ensures d.categoryName.Some? <==> p.category.Some?
    ensures p.category.Some? ==> d.categoryName.value == p.category.value.name
  {
    ProductDto(p.id, p.name, p.description, p.shortDescription, p.price, p.discountPrice,
               p.stock, p.sku, p.categoryId, CategoryNameOf(p), p.isActive, p.isFeatured)
  }

  /** ProductDto mapped onto an existing Product: the DTO's members overwrite the product's,
      and the members the DTO does not declare keep their values. */
  function ApplyDto(d: ProductDto, p: Product): (r: Product)
    ensures SharedMembersAgree(r, d)
    ensures r.category == p.category
    ensures r.thumbnailUrl == p.thumbnailUrl
    ensures r.createdAt == p.createdAt
  {
    p.(id := d.id, name := d.name, description := d.description,
       shortDescription := d.shortDescription, price := d.price,
       discountPrice := d.discountPrice, stock := d.stock, sku := d.sku,
       categoryId := d.categoryId, isActive := d.isActive, isFeatured := d.isFeatured)
  }

  /** Writing a product's own DTO back onto it changes nothing. */
  lemma ApplyOwnDto(p: Product)
    ensures ApplyDto(ToDto(p), p) == p
  {
  }

  /** Projecting an updated product gives back the DTO, except for the display-only
      `categoryName`, which still comes from the product's category. */
  lemma ToDtoOfApplied(d: ProductDto, p: Product)
    ensures ToDto(ApplyDto(d, p)) == d.(categoryName := CategoryNameOf(p))
  {
  }

  predicate SharedCategoryMembersAgree(c: Category, d: CategoryDto) {
    c.id == d.id && c.name == d.name && c.description == d.description
    && c.slug == d.slug && c.isActive == d.isActive
  }

  /** Category -> CategoryDto: same-named members copied. */
  function ToCategoryDto(c: Category): (d: CategoryDto)
    ensures SharedCategoryMembersAgree(c, d)
  {
    CategoryDto(c.id, c.name, c.description, c.slug, c.isActive)
  }

  /** CategoryDto mapped onto an existing Category: scalar members overwritten, the
      `products` back-reference kept. */
  function ApplyCategoryDto(d: CategoryDto, c: Category): (r: Category)
    ensures SharedCategoryMembersAgree(r, d)
    ensures r.products == c.products
  {
    c.(id := d.id, name := d.name, description := d.description, slug := d.slug,
       isActive := d.isActive)
  }

  lemma ApplyOwnCategoryDto(c: Category)
    ensures ApplyCategoryDto(ToCategoryDto(c), c) == c
  {
  }

  lemma ToCategoryDtoOfApplied(d: CategoryDto, c: Category)
    ensures ToCategoryDto(ApplyCategoryDto(d, c)) == d
  {
  }
}

=== FILE: optional.dfy ===
/** A value that may be missing. The catalog code's nullable members (`string?`, `decimal?`,
    a navigation that was not loaded) are all this one type. */
module Optional {

  datatype Option<+T> = None | Some(value: T) {

    /** C#'s null-coalescing `x ?? fallback`. */
    function ValueOr(fallback: T): T {
      if Some? then value else fallback
    }
  }
}

=== FILE: persistence.dfy ===
/** The in-memory store behind the repositories, and the row-level effect of the generic
    repository's operations (lookup by id, overwrite, remove, append). */
module Persistence {
  import opened Optional
  import opened Seqs
  import opened Entities

  /** The three tables, each in store order. */
  datatype Store = Store(categories: seq<Category>, products: seq<Product>, users: seq<User>)

  function IdOfProduct(p: Product): int { p.id }
  function IdOfCategory(c: Category): int { c.id }
  function IdOfUser(u: User): int { u.id }

  /** No two rows share a primary key. */
  predicate UniqueIds<T>(rows: seq<T>, idOf: T -> int) {
    forall i, j | 0 <= i < j < |rows| :: idOf(rows[i]) != idOf(rows[j])
  }

  predicate HasId<T>(rows: seq<T>, idOf: T -> int, id: int) {
    exists i | 0 <= i < |rows| :: idOf(rows[i]) == id
  }

  /** Every product's `categoryId` names a stored category (the foreign-key constraint). */
  predicate ReferentialIntegrity(s: Store) {
    forall i | 0 <= i < |s.products| :: HasId(s.categories, IdOfCategory, s.products[i].categoryId)
  }

  /** Stored rows hold keys only: the navigations are filled in by the queries that include
      them, never persisted. */
  predicate NavigationsEmpty(s: Store) {
    && (forall i | 0 <= i < |s.products| :: s.products[i].category == None)
    && (forall i | 0 <= i < |s.categories| :: s.categories[i].products == [])
  }

  /** The store invariant: unique primary keys in every table, no dangling foreign key, and
      no navigation stored in a row. */
  predicate Valid(s: Store) {
    && UniqueIds(s.categories, IdOfCategory)
    && UniqueIds(s.products, IdOfProduct)
    && UniqueIds(s.users, IdOfUser)
    && ReferentialIntegrity(s)
    && NavigationsEmpty(s)
  }

  /** Position of the row with primary key `id`, the first one in store order. */
  function IndexOfId<T>(rows: seq<T>, idOf: T -> int, id: int): (r: Option<nat>)
    ensures r.None? <==> !HasId(rows, idOf, id)
    ensures r.Some? ==> r.value < |rows| && idOf(rows[r.value]) == id
    ensures r.Some? ==> forall j | 0 <= j < r.value :: idOf(rows[j]) != id
  {
    FirstIndex(rows, (x: T) => idOf(x) == id)
  }

  /** Generic `GetByIdAsync`: the row with primary key `id`, or nothing. */
  function GetById<T>(rows: seq<T>, idOf: T -> int, id: int): (r: Option<T>)
    ensures r.None? <==> !HasId(rows, idOf, id)
    ensures r.Some? ==> idOf(r.value) == id && r.value in rows
    ensures r.Some? ==> exists i | 0 <= i < |rows| ::
      rows[i] == r.value && forall j | 0 <= j < i :: idOf(rows[j]) != id
  {
    match IndexOfId(rows, idOf, id)
    case None => None
    case Some(i) => Some(rows[i])
  }

  /** With unique keys, looking up a row's own key finds that very row. */
  lemma IndexOfOwnId<T>(rows: seq<T>, idOf: T -> int, i: nat)
    requires UniqueIds(rows, idOf)
    requires i < |rows|
    ensures IndexOfId(rows, idOf, idOf(rows[i])) == Some(i)
  {
    assert HasId(rows, idOf, idOf(rows[i]));
  }

  /** Overwriting a row with one that keeps its key keeps the keys unique. */
  lemma ReplaceKeepsUniqueIds<T>(rows: seq<T>, idOf: T -> int, i: nat, x: T)
    requires UniqueIds(rows, idOf)
    requires i < |rows| && idOf(x) == idOf(rows[i])
    ensures UniqueIds(rows[i := x], idOf)
  {
  }

  /** Removing a row keeps the keys unique, and its key is then gone. */
  lemma RemoveKeepsUniqueIds<T>(rows: seq<T>, idOf: T -> int, i: nat)
    requires UniqueIds(rows, idOf)
    requires i < |rows|
    ensures UniqueIds(RemoveAt(rows, i), idOf)
    ensures !HasId(RemoveAt(rows, i), idOf, idOf(rows[i]))
  {
    var r := RemoveAt(rows, i);
    forall a, b | 0 <= a < b < |r|
      ensures idOf(r[a]) != idOf(r[b])
    {
      var a' := if a < i then a else a + 1;
      var b' := if b < i then b else b + 1;
      assert r[a] == rows[a'] && r[b] == rows[b'];
    }
    forall k | 0 <= k < |r|
      ensures idOf(r[k]) != idOf(rows[i])
    {
      var k' := if k < i then k else k + 1;
      assert r[k] == rows[k'];
    }
  }

  /** Appending a row with a fresh key keeps the keys unique. */
  lemma AppendKeepsUniqueIds<T>(rows: seq<T>, idOf: T -> int, x: T)
    requires UniqueIds(rows, idOf)
    requires !HasId(rows, idOf, idOf(x))
    ensures UniqueIds(rows + [x], idOf)
  {
    var r := rows + [x];
    forall a, b | 0 <= a < b < |r|
      ensures idOf(r[a]) != idOf(r[b])
    {
      if b == |rows| {
        assert r[a] == rows[a];
      } else {
        assert r[a] == rows[a] && r[b] == rows[b];
      }
    }
  }
}

=== FILE: product_repository.dfy ===
/** ProductRepository's queries (ProductRepository.cs) as pure functions over the store. */
module ProductRepository {
  import opened Optional
  import opened Seqs
  import opened Entities
  import opened Persistence

  /** The stored category with primary key `id`, first in store order, or nothing. */
  function FindCategory(cats: seq<Category>, id: int): (r: Option<Category>)
    ensures r.None? <==> !HasId(cats, IdOfCategory, id)
    ensures r.Some? ==> r.value.id == id && r.value in cats
  {
    GetById(cats, IdOfCategory, id)
  }

  /** `Include(p => p.Category)` for one product: the navigation set from the foreign key,
      every other member untouched. */
  function WithCategory(p: Product, cats: seq<Category>): (r: Product)
    ensures r.(category := p.category) == p
    ensures r.category.Some? <==> HasId(cats, IdOfCategory, p.categoryId)
    ensures r.category.Some? ==> r.category.value.id == p.categoryId && r.category.value in cats
  {
    p.(category := FindCategory(cats, p.categoryId))
  }

  function AttachTo(cats: seq<Category>): Product -> Product {
    (p: Product) => WithCategory(p, cats)
  }

  function AttachCategories(ps: seq<Product>, cats: seq<Category>): (r: seq<Product>)
    ensures |r| == |ps|
    ensures forall i | 0 <= i < |ps| :: r[i] == WithCategory(ps[i], cats)
  {
    Map(ps, AttachTo(cats))
  }

  /** `GetProductsWithCategoryAsync`: every stored product, in store order, each with its
      category attached; under referential integrity none is left without one. */
  function GetProductsWithCategory(s: Store): (r: seq<Product>)
    ensures |r| == |s.products|
    ensures forall i | 0 <= i < |r| :: r[i].(category := s.products[i].category) == s.products[i]
    ensures forall i | 0 <= i < |r| :: r[i].category.Some? ==>
      r[i].category.value.id == r[i].categoryId && r[i].category.value in s.categories
    ensures ReferentialIntegrity(s) ==> forall i | 0 <= i < |r| :: r[i].category.Some?
  {
    AttachCategories(s.products, s.categories)
  }

  /** `GetProductWithCategoryByIdAsync`: the first product with `Id == id`, with its category
      attached, or nothing exactly when no product has that id. */
  function GetProductWithCategoryById(s: Store, id: int): (r: Option<Product>)
    ensures r.None? <==> !HasId(s.products, IdOfProduct, id)
    ensures r.Some? ==> r.value.id == id
    ensures r.Some? ==> exists i | 0 <= i < |s.products| ::
      && s.products[i].id == id
      && (forall j | 0 <= j < i :: s.products[j].id != id)
      && r.value == WithCategory(s.products[i], s.categories)
    ensures r.Some? && ReferentialIntegrity(s) ==>
      r.value.category.Some? && r.value.category.value.id == r.value.categoryId
  {
    match IndexOfId(s.products, IdOfProduct, id)
    case None => None
    case Some(i) => Some(WithCategory(s.products[i], s.categories))
  }

  /** `GetProductsByCategoryAsync`: the stored products with `CategoryId == categoryId`, each
      as often as stored and in store order, each with its category attached. Attaching and
      filtering commute, because attaching a category never changes the foreign key. */
  function GetProductsByCategory(s: Store, categoryId: int): (r: seq<Product>)
    ensures forall i | 0 <= i < |r| :: r[i].categoryId == categoryId
    ensures forall i | 0 <= i < |r| :: exists k | 0 <= k < |s.products| ::
      r[i] == WithCategory(s.products[k], s.categories)
    ensures forall k | 0 <= k < |s.products| && s.products[k].categoryId == categoryId ::
      WithCategory(s.products[k], s.categories) in r
    ensures ReferentialIntegrity(s) ==> forall i | 0 <= i < |r| ::
      r[i].category.Some? && r[i].category.value.id == categoryId
    ensures r == Map(Filter(s.products, InCategoryOf(categoryId)), AttachTo(s.categories))
  {
    ByCategoryFromStore(s, categoryId);
    FilterMapCommute(s.products, AttachTo(s.categories), InCategoryOf(categoryId), InCategoryOf(categoryId));
    Filter(AttachCategories(s.products, s.categories), InCategoryOf(categoryId))
  }

  /** The stored products of one category with their categories attached are stored products
      with their categories attached, and every stored product of that category is among them. */
  lemma ByCategoryFromStore(s: Store, categoryId: int)
    ensures var r := Map(Filter(s.products, InCategoryOf(categoryId)), AttachTo(s.categories));
      && (forall i | 0 <= i < |r| :: exists k | 0 <= k < |s.products| ::
            r[i] == WithCategory(s.products[k], s.categories))
      && (forall k | 0 <= k < |s.products| && s.products[k].categoryId == categoryId ::
            WithCategory(s.products[k], s.categories) in r)
  {
    MapFilterMembers(s.products, InCategoryOf(categoryId), AttachTo(s.categories));
  }
}

=== FILE: products_controller.dfy ===
/** ProductsController's actions (ProductsController.cs) as functions from a request and the
    store to a reply and the next store. The `Admin` role gate on Create, Update and Delete is
    enforced by the framework before the action runs and is not part of these functions. */
module ProductsController {
  import opened Optional
  import opened Seqs
  import opened Sorting
  import opened Text
  import opened Entities
  import opened Persistence
  import opened Mapping
  import opened ProductRepository
  import opened Listing
  import opened Http

  const DefaultPage: int := 1
  const DefaultPageSize: int := 10

  /** The search: `q` occurs (ordinal) in the name, or in the description when there is one. */
  function Matches(p: Product, q: string): (r: bool)
    ensures r <==> (exists i :: OccursAt(p.name, q, i))
                   || (p.description.Some? && exists i :: OccursAt(p.description.value, q, i))
  {
    Contains(p.name, q) || (p.description.Some? && Contains(p.description.value, q))
  }

  function MatchesQuery(q: string): Product -> bool {
    (p: Product) => Matches(p, q)
  }

  /** The optional filter: a blank or absent `q` keeps everything. */
  function FilterProducts(ps: seq<Product>, q: Option<string>): (r: seq<Product>)
    ensures IsNullOrWhiteSpace(q) ==> r == ps
    ensures !IsNullOrWhiteSpace(q) ==> forall i | 0 <= i < |r| :: Matches(r[i], q.value)
    ensures !IsNullOrWhiteSpace(q) ==> forall p | p in ps && Matches(p, q.value) :: p in r
    ensures !IsNullOrWhiteSpace(q) ==> forall p ::
      multiset(r)[p] == if Matches(p, q.value) then multiset(ps)[p] else 0
    ensures forall p | p in r :: p in ps
  {
    if IsNullOrWhiteSpace(q) then ps else Filter(ps, MatchesQuery(q.value))
  }

  function CreatedAtOf(p: Product): int {
    p.createdAt
  }

  /** `OrderByDescending(p => p.CreatedAt)`: newer (or equally new) first. */
  predicate NewerOrSame(a: int, b: int) {
    a >= b
  }

  lemma NewerOrSameIsTotalPreorder()
    ensures TotalPreorder(NewerOrSame)
  {
  }

  /** The listing behind `Get`, before the items are projected to DTOs. */
  function ListProducts(s: Store, page: int, pageSize: int, q: Option<string>): (r: Page<Product>)
    ensures r.page == page && r.pageSize == pageSize
    ensures page >= 1 && pageSize >= 0 ==>
      |r.items| == Min(pageSize, Max(0, r.total - Offset(page, pageSize)))
  {
    Paginate(FilterProducts(GetProductsWithCategory(s), q), CreatedAtOf, NewerOrSame, page, pageSize)
  }

  /** The listing exactly as the action computes it, with the wrapping `int` skip count. It is
      `ListProducts` whenever `(page - 1) * pageSize` fits in an `int`. */
  function ListProductsAsWritten(s: Store, page: int, pageSize: int, q: Option<string>): (r: Page<Product>)
    requires IsInt32(page) && IsInt32(pageSize)
    ensures r.total == |FilterProducts(GetProductsWithCategory(s), q)|
    ensures r.page == page && r.pageSize == pageSize
    ensures |r.items| == Min(Max(0, pageSize), Max(0, r.total - Max(0, OffsetAsWritten(page, pageSize))))
    ensures RunAt(r.items, SortByKey(FilterProducts(GetProductsWithCategory(s), q), CreatedAtOf, NewerOrSame),
                  Max(0, OffsetAsWritten(page, pageSize)))
    ensures IsInt32(page - 1) && IsInt32((page - 1) * pageSize) ==> r == ListProducts(s, page, pageSize, q)
  {
    PaginateAsWritten(FilterProducts(GetProductsWithCategory(s), q), CreatedAtOf, NewerOrSame, page, pageSize)
  }

  /** The DTO's category name is that of a stored category with the DTO's `CategoryId`. */
  ghost predicate NamesStoredCategory(s: Store, d: ProductDto) {
    exists c | c in s.categories :: c.id == d.categoryId && d.categoryName == Some(c.name)
  }

  /** Under referential integrity every listed product carries the stored category its
      `CategoryId` names, so its DTO names that category. */
  lemma ListedHaveCategories(s: Store, page: int, pageSize: int, q: Option<string>)
    ensures ReferentialIntegrity(s) ==> forall p | p in ListProducts(s, page, pageSize, q).items ::
      p.category.Some? && p.category.value in s.categories && p.category.value.id == p.categoryId
    ensures ReferentialIntegrity(s) ==> var items := ListProducts(s, page, pageSize, q).items;
      forall i | 0 <= i < |items| :: NamesStoredCategory(s, ToDto(items[i]))
  {
    if ReferentialIntegrity(s) {
      ListedFromStore(s, page, pageSize, q);
      LoadedNameStoredCategories(s, ListProducts(s, page, pageSize, q).items);
    }
  }

  /** Products loaded with their categories, under referential integrity, each carry the stored
      category they name, and so do their DTOs. */
  lemma LoadedNameStoredCategories(s: Store, items: seq<Product>)
    requires ReferentialIntegrity(s)
    requires forall p | p in items :: p in GetProductsWithCategory(s)
    ensures forall p | p in items ::
      p.category.Some? && p.category.value in s.categories && p.category.value.id == p.categoryId
    ensures forall i | 0 <= i < |items| :: NamesStoredCategory(s, ToDto(items[i]))
  {
    forall p | p in items
      ensures p.category.Some? && p.category.value in s.categories && p.category.value.id == p.categoryId
    {
      StoredCategoryOf(s, p);
    }
    forall i | 0 <= i < |items|
      ensures NamesStoredCategory(s, ToDto(items[i]))
    {
      assert items[i] in items;
      var c := items[i].category.value;
      assert c in s.categories;
      assert c.id == ToDto(items[i]).categoryId && ToDto(items[i]).categoryName == Some(c.name);
    }
  }

  /** Every listed product is one of the stored products with its category attached. */
  lemma ListedFromStore(s: Store, page: int, pageSize: int, q: Option<string>)
    ensures forall p | p in ListProducts(s, page, pageSize, q).items :: p in GetProductsWithCategory(s)
  {
    var filtered := FilterProducts(GetProductsWithCategory(s), q);
    PageItemsFromFiltered(filtered, CreatedAtOf, NewerOrSame, page, pageSize);
  }

  /** A loaded product carries, under referential integrity, the stored category it names. */
  lemma StoredCategoryOf(s: Store, p: Product)
    requires ReferentialIntegrity(s) && p in GetProductsWithCategory(s)
    ensures p.category.Some? && p.category.value in s.categories && p.category.value.id == p.categoryId
  {
    var all := GetProductsWithCategory(s);
    var i :| 0 <= i < |all| && all[i] == p;
  }

  /** `GET api/products?page=&pageSize=&q=`: echoes the paging (default page 1 of size 10) and
      returns the total and the DTOs of the listed products, in order. Under referential
      integrity each DTO names the stored category its `CategoryId` refers to. */
  function Get(s: Store, page: Option<int>, pageSize: Option<int>, q: Option<string>): (r: Page<ProductDto>)
    ensures r.page == QueryInt(page, DefaultPage) && r.pageSize == QueryInt(pageSize, DefaultPageSize)
    ensures page.None? ==> r.page == 1
    ensures pageSize.None? ==> r.pageSize == 10
    ensures r.total == ListProducts(s, r.page, r.pageSize, q).total
    ensures |r.items| == |ListProducts(s, r.page, r.pageSize, q).items|
    ensures forall i | 0 <= i < |r.items| ::
      r.items[i] == ToDto(ListProducts(s, r.page, r.pageSize, q).items[i])
    ensures ReferentialIntegrity(s) ==> forall i | 0 <= i < |r.items| :: NamesStoredCategory(s, r.items[i])
  {
    var page', pageSize' := QueryInt(page, DefaultPage), QueryInt(pageSize, DefaultPageSize);
    var listed := ListProducts(s, page', pageSize', q);
    ListedHaveCategories(s, page', pageSize', q);
    Page(listed.total, listed.page, listed.pageSize, Map(listed.items, ToDto))
  }

  /** With no search term nothing is filtered out: `total` is the number of stored products. */
  lemma ListUnfiltered(s: Store, page: int, pageSize: int, q: Option<string>)
    requires IsNullOrWhiteSpace(q)
    ensures ListProducts(s, page, pageSize, q).total == |s.products|
  {
  }

  /** With a search term every listed product matches it, and `total` counts exactly the stored
      products that match it. */
  lemma ListFiltered(s: Store, page: int, pageSize: int, q: Option<string>)
    requires !IsNullOrWhiteSpace(q)
    ensures forall p | p in ListProducts(s, page, pageSize, q).items :: Matches(p, q.value)
    ensures ListProducts(s, page, pageSize, q).total == |Filter(s.products, MatchesQuery(q.value))|
  {
    var all := GetProductsWithCategory(s);
    var filtered := FilterProducts(all, q);
    PageItemsFromFiltered(filtered, CreatedAtOf, NewerOrSame, page, pageSize);
    FilterMapCount(s.products, AttachTo(s.categories),
                   MatchesQuery(q.value), MatchesQuery(q.value));
  }

  /** Every stored product that matches the search is among the counted ones, with its
      category attached. */
  lemma ListComplete(s: Store, q: Option<string>, k: nat)
    requires k < |s.products|
    requires IsNullOrWhiteSpace(q) || Matches(s.products[k], q.value)
    ensures WithCategory(s.products[k], s.categories) in FilterProducts(GetProductsWithCategory(s), q)
  {
    assert GetProductsWithCategory(s)[k] == WithCategory(s.products[k], s.categories);
  }

  /** `total` depends only on the store and the search, never on the paging. */
  lemma ListTotalIgnoresPaging(s: Store, q: Option<string>, page1: int, pageSize1: int, page2: int, pageSize2: int)
    ensures ListProducts(s, page1, pageSize1, q).total == ListProducts(s, page2, pageSize2, q).total
  {
  }

  /** Listed products come newest first. */
  lemma ListNewestFirst(s: Store, page: int, pageSize: int, q: Option<string>)
    ensures var items := ListProducts(s, page, pageSize, q).items;
      forall i, j | 0 <= i < j < |items| :: items[i].createdAt >= items[j].createdAt
  {
    var filtered := FilterProducts(GetProductsWithCategory(s), q);
    NewerOrSameIsTotalPreorder();
    PaginateSorted(filtered, CreatedAtOf, NewerOrSame, page, pageSize);
  }

  /** The listed products are the run of the filtered products, newest first, that starts at
      index `(page - 1) * pageSize`. */
  lemma ListIsContiguousRun(s: Store, page: int, pageSize: int, q: Option<string>)
    requires page >= 1 && pageSize >= 0
    ensures RunAt(ListProducts(s, page, pageSize, q).items,
                  SortByKey(FilterProducts(GetProductsWithCategory(s), q), CreatedAtOf, NewerOrSame),
                  Offset(page, pageSize))
  {
  }

  /** `GET api/products/{id}`: NotFound exactly when no product has the id; otherwise the DTO
      of the first product with that id, whose category name, under referential integrity, is
      that of the stored category its `CategoryId` names. */
  function GetById(s: Store, id: int): (r: Reply<ProductDto>)
    ensures r.Ok? || r.NotFound?
    ensures r.NotFound? <==> !HasId(s.products, IdOfProduct, id)
    ensures r.Ok? ==> r.body.id == id
    ensures r.Ok? ==> exists i | 0 <= i < |s.products| ::
      && s.products[i].id == id
      && (forall j | 0 <= j < i :: s.products[j].id != id)
      && SharedMembersAgree(s.products[i], r.body)
    ensures r.Ok? && ReferentialIntegrity(s) ==> NamesStoredCategory(s, r.body)
  {
    match GetProductWithCategoryById(s, id)
    case None => NotFound
    case Some(p) =>
      assert ReferentialIntegrity(s) ==> p.category.value in s.categories;
      Ok(ToDto(p))
  }

  /** The product `Create` builds: a new product (created at `now`) with the body mapped onto it,
      under the id the store assigns. */
  function NewFromDto(dto: ProductDto, newId: int, now: int): (p: Product)
    ensures p.id == newId && p.createdAt == now
    ensures p.category == None && p.thumbnailUrl == None
    ensures SharedMembersAgree(p, dto.(id := newId))
  {
    ApplyDto(dto, NewProduct(now)).(id := newId)
  }

  /** `POST api/products`: appends the new product under a fresh store-assigned id and answers
      with its DTO (no category attached yet). */
  function Create(s: Store, dto: ProductDto, newId: int, now: int): (r: Step<ProductDto>)
    requires !HasId(s.products, IdOfProduct, newId)
    ensures r.reply == Created(newId, dto.(id := newId, categoryName := None))
    ensures |r.store.products| == |s.products| + 1 && r.store.products[..|s.products|] == s.products
    ensures var p := r.store.products[|s.products|];
      SharedMembersAgree(p, dto.(id := newId)) && p.createdAt == now && p.category == None
    ensures r.store.categories == s.categories && r.store.users == s.users
  {
    var p := NewFromDto(dto, newId, now);
    Step(Created(newId, ToDto(p)), s.(products := s.products + [p]))
  }

  /** `PUT api/products/{id}`: BadRequest when the path and body ids differ (before any lookup),
      NotFound when no product has the id, otherwise the body overwrites that product. Only a
      NoContent reply changes the store, and only that product. */
  function Update(s: Store, id: int, dto: ProductDto): (r: Step<ProductDto>)
    ensures id != dto.id ==> r == Step(BadRequest, s)
    ensures id == dto.id && !HasId(s.products, IdOfProduct, id) ==> r == Step(NotFound, s)
    ensures id == dto.id && HasId(s.products, IdOfProduct, id) ==> r.reply == NoContent
    ensures r.reply.NoContent? ==> exists i | 0 <= i < |s.products| ::
      && s.products[i].id == id
      && r.store.products == s.products[i := ApplyDto(dto, s.products[i])]
    ensures r.store.categories == s.categories && r.store.users == s.users
  {
    if id != dto.id then Step(BadRequest, s)
    else
      match IndexOfId(s.products, IdOfProduct, id)
      case None => Step(NotFound, s)
      case Some(i) =>
        Step(NoContent, s.(products := s.products[i := ApplyDto(dto, s.products[i])]))
  }

  /** `DELETE api/products/{id}`: NotFound with no change when no product has the id; otherwise
      that product is removed and nothing else changes. */
  function Delete(s: Store, id: int): (r: Step<ProductDto>)
    ensures r.reply.NotFound? || r.reply.NoContent?
    ensures r.reply.NotFound? <==> !HasId(s.products, IdOfProduct, id)
    ensures r.reply.NotFound? ==> r.store == s
    ensures r.reply.NoContent? ==> exists i | 0 <= i < |s.products| ::
      && s.products[i].id == id
      && r.store.products == RemoveAt(s.products, i)
    ensures r.store.categories == s.categories && r.store.users == s.users
  {
    match IndexOfId(s.products, IdOfProduct, id)
    case None => Step(NotFound, s)
    case Some(i) => Step(NoContent, s.(products := RemoveAt(s.products, i)))
  }

  /** No action rewrites a stored product's creation time. */
  lemma UpdateKeepsCreatedAt(s: Store, id: int, dto: ProductDto)
    ensures var after := Update(s, id, dto).store.products;
      |after| == |s.products| && forall i | 0 <= i < |after| :: after[i].createdAt == s.products[i].createdAt
  {
  }

  /** After a successful update, reading the product back gives the body, apart from the
      display-only category name. */
  lemma UpdateThenGetById(s: Store, id: int, dto: ProductDto)
    requires UniqueIds(s.products, IdOfProduct)
    requires Update(s, id, dto).reply.NoContent?
    ensures GetById(Update(s, id, dto).store, id).Ok?
    ensures GetById(Update(s, id, dto).store, id).body.(categoryName := None) == dto.(categoryName := None)
  {
    var i := IndexOfId(s.products, IdOfProduct, id).value;
    var after := Update(s, id, dto).store;
    ReplaceKeepsUniqueIds(s.products, IdOfProduct, i, ApplyDto(dto, s.products[i]));
    IndexOfOwnId(after.products, IdOfProduct, i);
    ToDtoOfApplied(dto, WithCategory(s.products[i], s.categories));
  }

  /** Update keeps the store valid as long as the body names a stored category. */
  lemma UpdateKeepsValid(s: Store, id: int, dto: ProductDto)
    requires Valid(s)
    requires HasId(s.categories, IdOfCategory, dto.categoryId)
    ensures Valid(Update(s, id, dto).store)
  {
    var r := Update(s, id, dto);
    if r.reply.NoContent? {
      var i := IndexOfId(s.products, IdOfProduct, id).value;
      ReplaceKeepsUniqueIds(s.products, IdOfProduct, i, ApplyDto(dto, s.products[i]));
    }
  }

  /** A successful delete removes exactly one product with that id: every other product stays,
      as often as before, and under unique ids no product with that id is left. */
  lemma DeleteRemovesExactly(s: Store, id: int)
    requires HasId(s.products, IdOfProduct, id)
    ensures var after := Delete(s, id).store.products;
      && |after| == |s.products| - 1
      && (forall p | p in s.products && p.id != id :: multiset(after)[p] == multiset(s.products)[p])
      && (UniqueIds(s.products, IdOfProduct) ==> !HasId(after, IdOfProduct, id))
  {
    var i := IndexOfId(s.products, IdOfProduct, id).value;
    if UniqueIds(s.products, IdOfProduct) {
      RemoveKeepsUniqueIds(s.products, IdOfProduct, i);
    }
  }

  /** Deleting twice: the second delete finds nothing and changes nothing. */
  lemma DeleteTwice(s: Store, id: int)
    requires UniqueIds(s.products, IdOfProduct)
    ensures Delete(Delete(s, id).store, id).reply == NotFound
    ensures Delete(Delete(s, id).store, id).store == Delete(s, id).store
  {
    if HasId(s.products, IdOfProduct, id) {
      DeleteRemovesExactly(s, id);
    }
  }

  /** Deleting a product keeps the store valid. */
  lemma DeleteKeepsValid(s: Store, id: int)
    requires Valid(s)
    ensures Valid(Delete(s, id).store)
  {
    var r := Delete(s, id);
    if r.reply.NoContent? {
      var i := IndexOfId(s.products, IdOfProduct, id).value;
      RemoveKeepsUniqueIds(s.products, IdOfProduct, i);
      forall k | 0 <= k < |r.store.products|
        ensures HasId(r.store.categories, IdOfCategory, r.store.products[k].categoryId)
      {
        var k' := if k < i then k else k + 1;
        assert r.store.products[k] == s.products[k'];
      }
    }
  }

  /** Creating a product and reading it back by the assigned id gives the body, under that id,
      apart from the display-only category name. */
  lemma CreateThenGetById(s: Store, dto: ProductDto, newId: int, now: int)
    requires UniqueIds(s.products, IdOfProduct)
    requires !HasId(s.products, IdOfProduct, newId)
    ensures GetById(Create(s, dto, newId, now).store, newId).Ok?
    ensures GetById(Create(s, dto, newId, now).store, newId).body.(categoryName := None)
      == dto.(id := newId, categoryName := None)
  {
    var after := Create(s, dto, newId, now).store;
    AppendKeepsUniqueIds(s.products, IdOfProduct, NewFromDto(dto, newId, now));
    IndexOfOwnId(after.products, IdOfProduct, |s.products|);
  }

  /** Creating a product under a fresh id in a stored category keeps the store valid. */
  lemma CreateKeepsValid(s: Store, dto: ProductDto, newId: int, now: int)
    requires Valid(s)
    requires !HasId(s.products, IdOfProduct, newId)
    requires HasId(s.categories, IdOfCategory, dto.categoryId)
    ensures Valid(Create(s, dto, newId, now).store)
  {
    AppendKeepsUniqueIds(s.products, IdOfProduct, NewFromDto(dto, newId, now));
  }
}

=== FILE: scenarios.dfy ===
/** Concrete requests against a small catalog shaped like the seed data (SeedData.cs): two
    active categories and two products created at different times. */
module Scenarios {
  import opened Optional
  import opened Entities
  import opened Persistence
  import opened Mapping
  import opened Listing
  import opened Http
  import ProductRepository
  import Sorting
  import ProductsController
  import AuthController

  function Laptops(): Category {
    Category(1, "Laptop", Some("All kinds of laptops"), [], "laptop", true)
  }

  function Phones(): Category {
    Category(2, "Mobile", Some("All kinds of mobile phones"), [], "mobile", true)
  }

  function VivoBook(): Product {
    Product(1, "Asus VivoBook", Some("For work and study"), Some("Asus laptop with a Core i5"),
            25000000, Some(23000000), 10, 1, None, None, 100, "LAP-001", true, true)
  }

  function Galaxy(): Product {
    Product(2, "Samsung Galaxy A54", Some("50 megapixel camera"), Some("Samsung phone with an AMOLED display"),
            15000000, None, 25, 2, None, None, 200, "MOB-001", true, true)
  }

  function Catalog(): (s: Store)
    ensures Valid(s)
  {
    var s := Store([Laptops(), Phones()], [VivoBook(), Galaxy()], []);
    assert HasId(s.categories, IdOfCategory, 1) by { assert s.categories[0].id == 1; }
    assert HasId(s.categories, IdOfCategory, 2) by { assert s.categories[1].id == 2; }
    s
  }

  /** Loading the products attaches each one's category. */
  lemma CatalogWithCategories()
    ensures ProductRepository.GetProductsWithCategory(Catalog())
         == [VivoBook().(category := Some(Laptops())), Galaxy().(category := Some(Phones()))]
  {
    var r := ProductRepository.GetProductsWithCategory(Catalog());
    assert r[0].category.value in Catalog().categories;
    assert r[1].category.value in Catalog().categories;
  }

  /** Newest first: the phone, created later, sorts ahead of the laptop. */
  lemma CatalogNewestFirst()
    ensures var a := VivoBook().(category := Some(Laptops()));
      var b := Galaxy().(category := Some(Phones()));
      Sorting.SortByKey([a, b], ProductsController.CreatedAtOf, ProductsController.NewerOrSame) == [b, a]
  {
    var a := VivoBook().(category := Some(Laptops()));
    var b := Galaxy().(category := Some(Phones()));
    assert [a, b][1..] == [b];
    assert [b][1..] == [];
  }

  /** The default listing shows both products, the newer one first, each with its category's
      name. */
  lemma DefaultListingNewestFirst()
    ensures var r := ProductsController.Get(Catalog(), None, None, None);
      && r.total == 2 && r.page == 1 && r.pageSize == 10
      && |r.items| == 2
      && r.items[0].id == 2 && r.items[0].categoryName == Some("Mobile")
      && r.items[1].id == 1 && r.items[1].categoryName == Some("Laptop")
  {
    CatalogWithCategories();
    CatalogNewestFirst();
    var sorted := [Galaxy().(category := Some(Phones())), VivoBook().(category := Some(Laptops()))];
    var listed := ProductsController.ListProducts(Catalog(), 1, 10, None);
    assert RunAt(listed.items, sorted, 0);
    assert listed.items == sorted;
  }

  /** A user row whose role is null: login's role claim says "User" while the reply body's
      `role` stays null, so the two disagree. */
  lemma NullRoleClaimDiffersFromBody(settings: AuthController.JwtSettings, now: int)
    ensures var s := Store([], [], [User(7, "sara", "sara@example.com", "secret", None)]);
      var r := AuthController.Login(s, settings, AuthController.UserDto("sara", "", ""), now).reply;
      && r.Ok?
      && r.body.token.claims[3] == AuthController.Claim(AuthController.Role, "User")
      && r.body.role == None
      && r.body.token.expires == now + 86400
  {
    var s := Store([], [], [User(7, "sara", "sara@example.com", "secret", None)]);
    assert s.users[0].username == "sara";
  }
}

=== FILE: seqs.dfy ===
/** The LINQ sequence operators the repositories and controllers use, as pure functions. */
module Seqs {
  import opened Optional

  function Min(a: int, b: int): int {
    if a <= b then a else b
  }

  function Max(a: int, b: int): int {
    if a >= b then a else b
  }

  /** Position of the first element satisfying `f`, scanning in sequence order. */
  function FirstIndex<T>(s: seq<T>, f: T -> bool): (r: Option<nat>)
    ensures r.None? <==> forall i | 0 <= i < |s| :: !f(s[i])
    ensures r.Some? ==> r.value < |s| && f(s[r.value])
    ensures r.Some? ==> forall j | 0 <= j < r.value :: !f(s[j])
    decreases |s|
  {
    if |s| == 0 then None
    else if f(s[0]) then Some(0)
    else
      match FirstIndex(s[1..], f)
      case None => None
      case Some(k) => Some(k + 1)
  }

  /** `FirstOrDefault(f)`: the first element satisfying `f`, or nothing. */
  function First<T>(s: seq<T>, f: T -> bool): (r: Option<T>)
    ensures r.None? <==> forall i | 0 <= i < |s| :: !f(s[i])
    ensures r.Some? ==> exists i | 0 <= i < |s| :: s[i] == r.value && f(s[i]) && forall j | 0 <= j < i :: !f(s[j])
  {
    match FirstIndex(s, f)
    case None => None
    case Some(i) => Some(s[i])
  }

  /** Appending after a match does not move the first match. */
  lemma FirstIndexAppend<T>(s: seq<T>, x: T, f: T -> bool)
    requires FirstIndex(s, f).Some?
    ensures FirstIndex(s + [x], f) == FirstIndex(s, f)
    ensures First(s + [x], f) == First(s, f)
  {
    var i := FirstIndex(s, f).value;
    var longer := s + [x];
    assert longer[i] == s[i];
    var r := FirstIndex(longer, f);
    assert r.value <= i;
    assert longer[r.value] == s[r.value];
  }

  /** `Where(f)`: exactly the elements satisfying `f`, each as often as in `s`; `FilterAppend`
      states that their order is kept. */
  function Filter<T(!new)>(s: seq<T>, f: T -> bool): (r: seq<T>)
    ensures |r| <= |s|
    ensures forall i | 0 <= i < |r| :: f(r[i])
    ensures forall x :: multiset(r)[x] == if f(x) then multiset(s)[x] else 0
    ensures forall x :: x in r <==> x in s && f(x)
    decreases |s|
  {
    if |s| == 0 then []
    else
      assert s == [s[0]] + s[1..];
      if f(s[0]) then [s[0]] + Filter(s[1..], f) else Filter(s[1..], f)
  }

  /** `Select(f)`: `f` applied to every element, order kept. */
  function Map<T, U>(s: seq<T>, f: T -> U): (r: seq<U>)
    ensures |r| == |s|
    ensures forall i | 0 <= i < |s| :: r[i] == f(s[i])
  {
    seq(|s|, i requires 0 <= i < |s| => f(s[i]))
  }

  /** `Skip(n)`: drops the first `n` elements; a non-positive count drops nothing. */
  function Skip<T>(s: seq<T>, n: int): (r: seq<T>)
    ensures |r| == Max(0, |s| - Max(0, n))
    ensures forall i | 0 <= i < |r| :: r[i] == s[Max(0, n) + i]
  {
    if n <= 0 then s else if n >= |s| then [] else s[n..]
  }

  /** `Take(n)`: keeps the first `n` elements; a non-positive count keeps nothing. */
  function Take<T>(s: seq<T>, n: int): (r: seq<T>)
    ensures |r| == Min(|s|, Max(0, n))
    ensures forall i | 0 <= i < |r| :: r[i] == s[i]
  {
    if n <= 0 then [] else if n >= |s| then s else s[..n]
  }

  /** `s` without its element at position `i`; everything else in order. */
  function RemoveAt<T>(s: seq<T>, i: nat): (r: seq<T>)
    requires i < |s|
    ensures |r| == |s| - 1
    ensures forall j | 0 <= j < i :: r[j] == s[j]
    ensures forall j | i <= j < |r| :: r[j] == s[j + 1]
    ensures multiset(r) == multiset(s) - multiset{s[i]}
  {
    assert s == s[..i] + [s[i]] + s[i + 1..];
    s[..i] + s[i + 1..]
  }

  /** Every window of `s` holds a sub-multiset of `s`. */
  lemma SliceMultiset<T>(s: seq<T>, a: int, b: int)
    requires 0 <= a <= b <= |s|
    ensures multiset(s[a..b]) <= multiset(s)
  {
    assert s == s[..a] + s[a..b] + s[b..];
  }

  /** `Where` keeps the input order: filtering a concatenation filters each part in turn. */
  lemma {:induction false} FilterAppend<T(!new)>(a: seq<T>, b: seq<T>, f: T -> bool)
    ensures Filter(a + b, f) == Filter(a, f) + Filter(b, f)
    decreases |a|
  {
    if |a| == 0 {
      assert a + b == b;
    } else {
      assert (a + b)[0] == a[0];
      assert (a + b)[1..] == a[1..] + b;
      FilterAppend(a[1..], b, f);
    }
  }

  /** Every element of a filtered projection is the image of an element of `s`, and every
      element of `s` that passes the filter has its image there. */
  lemma MapFilterMembers<T(!new), U>(s: seq<T>, g: T -> bool, m: T -> U)
    ensures forall i | 0 <= i < |Map(Filter(s, g), m)| ::
      exists k | 0 <= k < |s| :: Map(Filter(s, g), m)[i] == m(s[k])
    ensures forall k | 0 <= k < |s| && g(s[k]) :: m(s[k]) in Map(Filter(s, g), m)
  {
    var f := Filter(s, g);
    var r := Map(f, m);
    forall i | 0 <= i < |r|
      ensures exists k | 0 <= k < |s| :: r[i] == m(s[k])
    {
      assert f[i] in s;
      var k :| 0 <= k < |s| && s[k] == f[i];
    }
    forall k | 0 <= k < |s| && g(s[k])
      ensures m(s[k]) in r
    {
      assert s[k] in f;
      var j :| 0 <= j < |f| && f[j] == s[k];
      assert r[j] == m(s[k]);
    }
  }

  /** Filtering after a projection that the filter cannot see is projecting after filtering
      the originals: the same elements, in the same order. */
  lemma {:induction false} FilterMapCommute<T(!new), U(!new)>(s: seq<T>, m: T -> U, f: U -> bool, g: T -> bool)
    requires forall x :: f(m(x)) == g(x)
    ensures Filter(Map(s, m), f) == Map(Filter(s, g), m)
    decreases |s|
  {
    if |s| > 0 {
      var ms := Map(s, m);
      assert ms[0] == m(s[0]);
      assert ms[1..] == Map(s[1..], m);
      FilterMapCommute(s[1..], m, f, g);
      if g(s[0]) {
        assert Map(Filter(s, g), m) == [m(s[0])] + Map(Filter(s[1..], g), m);
      }
    }
  }

  /** Filtering after a projection that the filter cannot see keeps the same number of items
      as filtering before it. */
  lemma {:induction false} FilterMapCount<T(!new), U(!new)>(s: seq<T>, m: T -> U, f: U -> bool, g: T -> bool)
    requires forall x :: f(m(x)) == g(x)
    ensures |Filter(Map(s, m), f)| == |Filter(s, g)|
    decreases |s|
  {
    if |s| > 0 {
      assert Map(s, m) == [m(s[0])] + Map(s[1..], m);
      FilterMapCount(s[1..], m, f, g);
    }
  }
}

=== FILE: sorting.dfy ===
/** `OrderBy` / `OrderByDescending` by a key under a comparer, as a stable insertion sort. */
module Sorting {

  /** `le` is total and transitive: what a comparer must be for sorting to make sense. */
  ghost predicate TotalPreorder<K(!new)>(le: (K, K) -> bool) {
    && (forall a, b :: le(a, b) || le(b, a))
    && (forall a, b, c :: le(a, b) && le(b, c) ==> le(a, c))
  }

  /** Every element's key is `le` every later element's key. */
  ghost predicate SortedBy<T, K>(s: seq<T>, key: T -> K, le: (K, K) -> bool) {
    forall i, j | 0 <= i < j < |s| :: le(key(s[i]), key(s[j]))
  }

  /** Inserts `x` before the first element whose key it is `le`. */
  function Insert<T, K>(x: T, s: seq<T>, key: T -> K, le: (K, K) -> bool): (r: seq<T>)
    ensures |r| == |s| + 1
    ensures multiset(r) == multiset(s) + multiset{x}
    decreases |s|
  {
    if |s| == 0 || le(key(x), key(s[0])) then [x] + s
    else
      assert s == [s[0]] + s[1..];
      [s[0]] + Insert(x, s[1..], key, le)
  }

  /** The elements of `s` ordered by `key` under `le`; earlier elements win ties. */
  function SortByKey<T, K>(s: seq<T>, key: T -> K, le: (K, K) -> bool): (r: seq<T>)
    ensures |r| == |s|
    ensures multiset(r) == multiset(s)
    decreases |s|
  {
    if |s| == 0 then []
    else
      assert s == [s[0]] + s[1..];
      Insert(s[0], SortByKey(s[1..], key, le), key, le)
  }

  /** Putting in front of a sorted sequence an element whose key is `le` all of its keys
      keeps it sorted. */
  lemma ConsSorted<T, K>(y: T, t: seq<T>, key: T -> K, le: (K, K) -> bool)
    requires SortedBy(t, key, le)
    requires forall k | 0 <= k < |t| :: le(key(y), key(t[k]))
    ensures SortedBy([y] + t, key, le)
  {
    var r := [y] + t;
    forall i, j | 0 <= i < j < |r|
      ensures le(key(r[i]), key(r[j]))
    {
      assert r[j] == t[j - 1];
      if i > 0 {
        assert r[i] == t[i - 1];
      }
    }
  }

  /** When `x` goes after the head of a sorted `s`, the head's key is `le` every key of the
      rest with `x` inserted. */
  lemma InsertTailBound<T, K(!new)>(x: T, s: seq<T>, key: T -> K, le: (K, K) -> bool)
    requires TotalPreorder(le)
    requires SortedBy(s, key, le)
    requires |s| > 0 && !le(key(x), key(s[0]))
    ensures forall k | 0 <= k < |Insert(x, s[1..], key, le)| ::
      le(key(s[0]), key(Insert(x, s[1..], key, le)[k]))
  {
    var t := Insert(x, s[1..], key, le);
    forall k | 0 <= k < |t|
      ensures le(key(s[0]), key(t[k]))
    {
      assert t[k] in multiset(t);
      if t[k] != x {
        assert t[k] in multiset(s[1..]);
        var m :| 0 <= m < |s[1..]| && s[1..][m] == t[k];
        assert s[m + 1] == t[k];
      }
    }
  }

  lemma {:induction false} InsertSorted<T, K(!new)>(x: T, s: seq<T>, key: T -> K, le: (K, K) -> bool)
    requires TotalPreorder(le)
    requires SortedBy(s, key, le)
    ensures SortedBy(Insert(x, s, key, le), key, le)
    decreases |s|
  {
    if |s| == 0 || le(key(x), key(s[0])) {
      forall k | 0 <= k < |s|
        ensures le(key(x), key(s[k]))
      {
        if k > 0 {
          assert le(key(s[0]), key(s[k]));
        }
      }
      ConsSorted(x, s, key, le);
    } else {
      SortedSlice(s, 1, |s|, key, le);
      assert s[1..|s|] == s[1..];
      InsertSorted(x, s[1..], key, le);
      InsertTailBound(x, s, key, le);
      ConsSorted(s[0], Insert(x, s[1..], key, le), key, le);
    }
  }

  /** The sort's output is ordered whenever the comparer is a total preorder. */
  lemma {:induction false} SortByKeySorted<T, K(!new)>(s: seq<T>, key: T -> K, le: (K, K) -> bool)
    requires TotalPreorder(le)
    ensures SortedBy(SortByKey(s, key, le), key, le)
    decreases |s|
  {
    if |s| > 0 {
      SortByKeySorted(s[1..], key, le);
      InsertSorted(s[0], SortByKey(s[1..], key, le), key, le);
    }
  }

  /** A window of a sorted sequence is sorted. */
  lemma SortedSlice<T, K>(s: seq<T>, a: int, b: int, key: T -> K, le: (K, K) -> bool)
    requires 0 <= a <= b <= |s|
    requires SortedBy(s, key, le)
    ensures SortedBy(s[a..b], key, le)
  {
    forall i, j | 0 <= i < j < b - a
      ensures le(key(s[a..b][i]), key(s[a..b][j]))
    {
      assert s[a..b][i] == s[a + i] && s[a..b][j] == s[a + j];
    }
  }
}

=== FILE: text.dfy ===
/** The .NET string operations the catalog and auth code rely on, over `seq<char>`. */
module Text {
  import opened Optional

  /** `char.IsWhiteSpace`: the Unicode space, line and paragraph separators,
      the controls U+0009..U+000D and U+0085. Within ASCII that is the space and the five
      controls from tab to carriage return; nothing above the ideographic space qualifies. */
  function IsWhiteSpace(c: char): (r: bool)
    ensures c as int < 0x80 ==> (r <==> c == ' ' || '\t' <= c <= '\r')
    ensures r ==> c as int <= 0x3000
  {
    || c == ' '
    || ('\t' <= c <= '\r')
    || c == '\U{0085}'
    || c == '\U{00A0}'
    || c == '\U{1680}'
    || ('\U{2000}' <= c <= '\U{200A}')
    || c == '\U{2028}'
    || c == '\U{2029}'
    || c == '\U{202F}'
    || c == '\U{205F}'
    || c == '\U{3000}'
  }

  /** Every character of `s` is whitespace, checked from the front. */
  function AllWhiteSpace(s: string): (r: bool)
    ensures r <==> forall i | 0 <= i < |s| :: IsWhiteSpace(s[i])
    decreases |s|
  {
    |s| == 0 || (IsWhiteSpace(s[0]) && AllWhiteSpace(s[1..]))
  }

  /** `string.IsNullOrWhiteSpace`: absent, empty, or made of whitespace only. */
  function IsNullOrWhiteSpace(q: Option<string>): (r: bool)
    ensures r <==> q.None? || forall i | 0 <= i < |q.value| :: IsWhiteSpace(q.value[i])
    ensures q == Some("") ==> r
  {
    match q
    case None => true
    case Some(s) => AllWhiteSpace(s)
  }

  predicate StartsWith(s: string, prefix: string) {
    |prefix| <= |s| && s[..|prefix|] == prefix
  }

  /** `q` occurs in `s` at position `i`. */
  ghost predicate OccursAt(s: string, q: string, i: int) {
    0 <= i <= |s| - |q| && s[i..i + |q|] == q
  }

  /** Ordinal `string.Contains(string)`: true exactly when `q` occurs somewhere in `s`. */
  function Contains(s: string, q: string): (r: bool)
    ensures r <==> exists i :: OccursAt(s, q, i)
    decreases |s|
  {
    if StartsWith(s, q) then
      assert OccursAt(s, q, 0);
      true
    else if |s| == 0 then
      false
    else
      var r := Contains(s[1..], q);
      OccursShift(s, q);
      r
  }

  /** Occurrences in `s[1..]` are the occurrences in `s` past position 0. */
  lemma OccursShift(s: string, q: string)
    requires |s| > 0
    requires !StartsWith(s, q)
    ensures (exists i :: OccursAt(s[1..], q, i)) <==> (exists i :: OccursAt(s, q, i))
  {
    if exists i :: OccursAt(s[1..], q, i) {
      var i :| OccursAt(s[1..], q, i);
      assert s[1..][i..i + |q|] == s[i + 1..i + 1 + |q|];
      assert OccursAt(s, q, i + 1);
    }
    if exists i :: OccursAt(s, q, i) {
      var i :| OccursAt(s, q, i);
      assert s[1..][i - 1..i - 1 + |q|] == s[i..i + |q|];
      assert OccursAt(s[1..], q, i - 1);
    }
  }

  predicate IsDigit(c: char) {
    '0' <= c <= '9'
  }

  function DigitChar(d: nat): (c: char)
    requires d < 10
    ensures IsDigit(c) && c as int - '0' as int == d
  {
    (('0' as int) + d) as char
  }

  function DigitValue(c: char): nat
    requires IsDigit(c)
  {
    c as int - '0' as int
  }

  /** Decimal digits of a natural number, most significant first, no leading zero. */
  function NatToString(n: nat): (r: string)
    ensures |r| >= 1
    ensures forall i | 0 <= i < |r| :: IsDigit(r[i])
    ensures |r| > 1 ==> r[0] != '0'
    decreases n
  {
    if n < 10 then [DigitChar(n)] else NatToString(n / 10) + [DigitChar(n % 10)]
  }

  /** `int.ToString()`: a minus sign for negative values, then the decimal digits. */
  function IntToString(n: int): (r: string)
    ensures |r| >= 1
    ensures n < 0 <==> r[0] == '-'
    ensures forall i | (if n < 0 then 1 else 0) <= i < |r| :: IsDigit(r[i])
    ensures n < 0 ==> |r| >= 2
    ensures var k := if n < 0 then 1 else 0; |r| > k + 1 ==> r[k] != '0'
    ensures n < 0 ==> r[1] != '0'
  {
    if n < 0 then "-" + NatToString(-n) else NatToString(n)
  }

  /** Reads back a string of decimal digits. */
  function ParseNat(s: string): nat
    requires forall i | 0 <= i < |s| :: IsDigit(s[i])
    decreases |s|
  {
    if |s| == 0 then 0 else ParseNat(s[..|s| - 1]) * 10 + DigitValue(s[|s| - 1])
  }

  /** `int.Parse` on the strings `IntToString` produces: optional minus sign, then digits. */
  function ParseInt(s: string): int
    requires |s| >= 1
    requires forall i | (if s[0] == '-' then 1 else 0) <= i < |s| :: IsDigit(s[i])
  {
    if s[0] == '-' then -(ParseNat(s[1..]) as int) else ParseNat(s)
  }

  lemma {:induction false} ParseNatToString(n: nat)
    ensures ParseNat(NatToString(n)) == n
    decreases n
  {
    if n >= 10 {
      var r := NatToString(n);
      ParseNatToString(n / 10);
      assert r[..|r| - 1] == NatToString(n / 10);
    }
  }

  /** The decimal rendering of an integer reads back as the same integer,
      so distinct ids always render as distinct strings. */
  lemma {:induction false} ParseIntToString(n: int)
    ensures ParseInt(IntToString(n)) == n
  {
    if n < 0 {
      ParseNatToString(-n);
      assert IntToString(n)[1..] == NatToString(-n);
    } else {
      ParseNatToString(n);
    }
  }

  lemma IntToStringInjective(a: int, b: int)
    requires IntToString(a) == IntToString(b)
    ensures a == b
  {
    ParseIntToString(a);
    ParseIntToString(b);
  }
}

=== FILE: user_repository.dfy ===
/** The two lookups IUserRepository adds to the generic repository. Its implementation is not
    part of this model; each lookup is taken to be "first user in store order with that value". */
module UserRepository {
  import opened Optional
  import opened Seqs
  import opened Entities

  predicate HasUsername(u: User, username: string) {
    u.username == username
  }

  predicate HasEmail(u: User, email: string) {
    u.email == email
  }

  function UsernameIs(username: string): User -> bool {
    (u: User) => HasUsername(u, username)
  }

  function EmailIs(email: string): User -> bool {
    (u: User) => HasEmail(u, email)
  }

  /** `GetByUsernameAsync`: the first user with that exact username, or nothing exactly when
      no user has it. */
  function GetByUsername(users: seq<User>, username: string): (r: Option<User>)
    ensures r.None? <==> forall i | 0 <= i < |users| :: users[i].username != username
    ensures r.Some? ==> exists i | 0 <= i < |users| ::
      && users[i] == r.value
      && users[i].username == username
      && forall j | 0 <= j < i :: users[j].username != username
  {
    First(users, UsernameIs(username))
  }

  /** `GetByEmailAsync`: the first user with that exact email, or nothing exactly when no user
      has it. */
  function GetByEmail(users: seq<User>, email: string): (r: Option<User>)
    ensures r.None? <==> forall i | 0 <= i < |users| :: users[i].email != email
    ensures r.Some? ==> exists i | 0 <= i < |users| ::
      && users[i] == r.value
      && users[i].email == email
      && forall j | 0 <= j < i :: users[j].email != email
  {
    First(users, EmailIs(email))
  }
}
